=== FILE: README.md ===
# Datman session fetching, BIDS-app job building and shared-ID linking

This project models, in Dafny, the decision logic of three datman command-line
tools:

- `xnat_fetch_sessions` mirrors the sessions of an XNAT project as one zip per
  session. For each session it decides whether the local zip is still current
  (`update_needed`, `files_downloaded`). Otherwise it downloads the session,
  normalises the archive layout (`restructure_zip`) and writes the zip. It
  reads its user name and password from a two-line credentials file.
- `dm_bids_app` turns a JSON description of a BIDS app into job scripts. It
  converts the app arguments into flags, validates the JSON, groups subjects
  (per session, or per participant in longitudinal mode), skips subjects that
  already have output, and builds the log redirect, the exclusion commands and
  the qsub thread request.
- `dm_link_shared_ids` reads REDCap records. It keeps the current study's
  records, extracts each record's shared subject IDs, normalises the XNAT
  address and picks a subject's experiment.

The model is functional: datatypes for sessions, archives and records, and pure
functions for the operations. The server, the file system, downloads and the
datman ID parser are inputs to those functions. The fetch loop is a method
whose loop invariants tie each logged action to the per-session decision.

Modules:

- `Common`: `Option` and `Result`.
- `Text`: the Python string and path primitives the tools rely on: `strip`,
  ASCII `lower`/`upper`, `split`/`join` on one character, `os.path.basename`,
  and `os.path.join`.
- `ArchiveCheck`: `update_needed`, `files_downloaded` and the header
  projections.
- `ArchiveLayout`: `bad_folders_exist` and `restructure_zip`. The latter covers
  moving the `resources/MISC/` children, `remove_snapshots` and
  `remove_empty_dirs`, all as a transform of the set of member paths.
- `SessionSync`: the `get_sessions` loop.
- `Credentials`: `get_credentials`.
- `BidsApp`: the `dm_bids_app` helpers.
- `SharedIds`: the `dm_link_shared_ids` helpers and `Record`.

## Model

| member | source | states |
|---|---|---|
| ArchiveCheck.ExperimentIds | bin/xnat_fetch_sessions.py:180-181 | one StudyInstanceUID per archive header, in header order |
| ArchiveCheck.ScanUids | bin/xnat_fetch_sessions.py:183-184 | one SeriesInstanceUID per archive header, in header order |
| ArchiveCheck.FilesDownloaded | bin/xnat_fetch_sessions.py:191-199 | true exactly when the local list is at least as long as the remote list and every remote item's basename is the basename of some local item |
| ArchiveCheck.FilesDownloadedByBasename | bin/xnat_fetch_sessions.py:192-194 | the verdict depends only on basenames: items with the same basenames give the same answer |
| ArchiveCheck.FilesDownloadedIgnoresDirectories | bin/xnat_fetch_sessions.py:192-194 | placing local and remote items under any directories leaves the verdict unchanged |
| ArchiveCheck.FilesDownloadedMonotone | bin/xnat_fetch_sessions.py:197-198 | adding local items never makes a covered remote list uncovered |
| ArchiveCheck.FilesDownloadedReflexive | bin/xnat_fetch_sessions.py:197-198 | every list covers itself |
| ArchiveCheck.AtMostOneDistinct | bin/xnat_fetch_sessions.py:158-166 | "at most one distinct experiment ID, and it is the session's" holds exactly when the archive is non-empty and every header carries the session's experiment UID |
| ArchiveCheck.UpdateNeeded | bin/xnat_fetch_sessions.py:153-178 | false without an experiment; for an archive that passes the guards, true exactly when the remote resources or the remote scan UIDs are not covered |
| ArchiveCheck.MixedArchiveIsLeftAlone | bin/xnat_fetch_sessions.py:157-161 | an archive whose headers name two different experiments never needs an update |
| ArchiveCheck.ForeignArchiveIsLeftAlone | bin/xnat_fetch_sessions.py:163-166 | an archive none of whose headers names the session's experiment never needs an update |
| ArchiveCheck.CurrentArchiveIsComplete | bin/xnat_fetch_sessions.py:168-178 | an archive of the session's own experiment (every header carries the session's experiment UID) that is judged current holds a scan with the basename of every remote scan UID and a resource with the basename of every remote resource, and is at least as large as the remote lists |
| ArchiveCheck.ExtraLocalContentStaysCurrent | bin/xnat_fetch_sessions.py:157-178 | adding headers or resource files to an archive that passed the guards and was found current never makes it need an update |
| ArchiveCheck.CoveredIsCurrent | bin/xnat_fetch_sessions.py:172-178 | an archive covering both the remote resources and the remote scan UIDs never needs an update, whatever the guards decide |
| ArchiveCheck.MirrorIsCurrent | bin/xnat_fetch_sessions.py:144-178 | a faithful copy of the session never needs an update |
| ArchiveCheck.PrefixIsCovered | bin/xnat_fetch_sessions.py:191-199 | a local list that starts with the remote list covers it |
| ArchiveCheck.ExampleSupersetIsCurrent | bin/xnat_fetch_sessions.py:172-178 | local scans S1, S2, S3 and resources a.txt, b.txt under experiment E1 cover a session with scans S1, S2 and resource a.txt |
| ArchiveCheck.ExampleMissingScanIsStale | bin/xnat_fetch_sessions.py:172-176 | the same session against a local archive holding only S1 needs an update |
| ArchiveCheck.ExampleOtherExperimentIsLeftAlone | bin/xnat_fetch_sessions.py:163-166 | an archive of another experiment is not re-fetched |
| ArchiveLayout.BadFoldersExist | bin/xnat_fetch_sessions.py:279-283 | true exactly when some member name starts with the prefix |
| ArchiveLayout.Movable | bin/xnat_fetch_sessions.py:301-305 | a `resources/MISC/` child is moved when the `*` glob lists it (non-empty, not starting with '.') and its name is free at the top level; a failed move is only logged |
| ArchiveLayout.Relocate | bin/xnat_fetch_sessions.py:272-273 | a member either keeps its path or loses exactly the `resources/MISC/` prefix |
| ArchiveLayout.InSnapshots | bin/xnat_fetch_sessions.py:285-292 | a path lies inside a `SNAPSHOTS` directory at some depth: a component other than the last is `SNAPSHOTS` |
| ArchiveLayout.Survives | bin/xnat_fetch_sessions.py:285-299 | a path outlives `remove_snapshots` and `remove_empty_dirs`: it is not inside a `SNAPSHOTS` directory and not under `resources/` |
| ArchiveLayout.RestructureZip | bin/xnat_fetch_sessions.py:253-277 | the zip is moved unchanged exactly when no member lies under `resources/MISC/`; a rebuilt zip holds nothing under `resources/` or inside a `SNAPSHOTS` directory, and every path in it is a downloaded path or one with `resources/MISC/` removed |
| ArchiveLayout.FirstComponentOfNested | bin/xnat_fetch_sessions.py:272-273 | a path below folder `dir` creates `dir` at the top of the extraction directory |
| ArchiveLayout.OtherMembersKept | bin/xnat_fetch_sessions.py:275-277 | a member outside `resources/` and outside any `SNAPSHOTS` directory is kept at its own path |
| ArchiveLayout.MiscMembersFlattened | bin/xnat_fetch_sessions.py:272-277 | a movable child of `resources/MISC/`, outside `SNAPSHOTS`, ends up at the top level |
| ArchiveLayout.UnmovableMiscMembersLost | bin/xnat_fetch_sessions.py:272-277 | a hidden child of `resources/MISC/`, or one whose name is taken at the top level, is not moved and is deleted together with `resources/` |
| SessionSync.ZipName | bin/xnat_fetch_sessions.py:122 | the archive name is the session name upper-cased, followed by ".zip" |
| SessionSync.ZipNameIgnoresCase | bin/xnat_fetch_sessions.py:122 | session names that differ only in letter case map to the same archive |
| SessionSync.Decide | bin/xnat_fetch_sessions.py:113-142 | a session whose details cannot be fetched is skipped; an archive that is present, readable and current is skipped; an unreadable archive ends the run; a dry run stops at the first session it would fetch and writes nothing; otherwise a successful download is restructured and written, and only a failed one is skipped |
| SessionSync.GetSessions | bin/xnat_fetch_sessions.py:109-142 | sessions are handled in server order, each by the per-session decision; the loop stops right after the first dry-run fetch or crash and goes through every session otherwise |
| SessionSync.DryRunWritesNothing | bin/xnat_fetch_sessions.py:130-133 | a dry run writes nothing, and every session before the last one handled was unavailable or current |
| SessionSync.MirroredSessionIsSkipped | bin/xnat_fetch_sessions.py:124-128 | a session whose stored archive reads back as a faithful copy of it is skipped, in a dry run as well |
| Credentials.ReadLines | bin/xnat_fetch_sessions.py:203-204 | `readlines`: the lines concatenate back to the text, each is non-empty, only the last may lack its newline, and there are none exactly when the text is empty |
| Credentials.TwoLinesIffSecondLine | bin/xnat_fetch_sessions.py:208-211 | the file has two lines exactly when some newline is not its last character |
| Credentials.ReadLinesHead | bin/xnat_fetch_sessions.py:204 | the first line read is the text up to and including its first newline (all of it when there is none), and the remaining lines are those of the text after it |
| Credentials.GetCredentials | bin/xnat_fetch_sessions.py:201-216 | an unreadable file is an error; a readable file succeeds exactly when it has a second line and is otherwise malformed; the user name is the stripped text up to the first newline and the password the stripped text from there to the next newline or the end |
| Credentials.CredentialsRoundTrip | bin/xnat_fetch_sessions.py:208-216 | a file written as a trimmed user name without newlines, newline, a trimmed password without newlines, newline reads back as that pair, whatever follows |
| Credentials.CredentialsWithoutFinalNewline | bin/xnat_fetch_sessions.py:208-210 | a trimmed user name without newlines, a newline and a non-empty trimmed password without newlines and with no final newline read back as that pair; an empty password there leaves a single line, which is malformed |
| Text.Strip | bin/xnat_fetch_sessions.py:209-210 | `str.strip`: the result lies between whitespace-only runs at both ends of the input and has no whitespace at either end |
| Text.StripIdempotent | bin/dm_link_shared_ids.py:241 | stripping twice is stripping once |
| Text.Basename | bin/xnat_fetch_sessions.py:193-194 | `os.path.basename`: the longest suffix without '/' |
| Text.JoinSplit | bin/dm_bids_app.py:528 | joining the '_'-split fields with '_' gives the subject back |
| Text.BasenameOfPathJoin | bin/dm_bids_app.py:491 | the basename of a joined path is the basename of its second part |
| Text.PathJoin | bin/dm_bids_app.py:140 | two-argument `os.path.join`: an absolute second part wins, otherwise one '/' separates the parts; BasenameOfPathJoin states what survives of it |
| Text.Lower | bin/dm_bids_app.py:207 | `lower`: same length, each ASCII capital replaced by its small letter |
| Text.Upper | bin/xnat_fetch_sessions.py:122 | `upper`: same length, each ASCII small letter replaced by its capital |
| Text.Split | bin/dm_bids_app.py:528 | `split` on one character: at least one field, none containing the separator, more than one when the separator occurs; JoinSplit states that Join undoes it |
| Text.Join | bin/dm_bids_app.py:528 | `join` with one separator character; JoinSplit states that it undoes Split |
| BidsApp.GetDictArgs | bin/dm_bids_app.py:201-210 | `get_dict_args` over the (key, rendered value) entries in dictionary order, later flags overwriting earlier ones; its flags and values are stated by GetDictArgsKeys and GetDictArgsValues |
| BidsApp.GetDictArgsKeys | bin/dm_bids_app.py:201-210 | the flags produced are exactly "--" plus the lower-cased key, for the entries whose value is not "false" in any case |
| BidsApp.GetDictArgsValues | bin/dm_bids_app.py:201-210 | each flag carries the value of the last entry producing it: empty for "true" in any case, the value otherwise |
| BidsApp.GetDictArgsDistinctKeys | bin/dm_bids_app.py:207-208 | when no two keys collide after lower-casing, every kept entry appears as its own flag with its own value |
| BidsApp.GroupKey | bin/dm_bids_app.py:528 | the grouping key: the subject itself, or in longitudinal mode its '_'-fields without the last, rejoined; LongitudinalKeyDropsLastField states which text that is |
| BidsApp.LongitudinalKeyDropsLastField | bin/dm_bids_app.py:528 | the longitudinal key is the text before the subject's last '_', or empty when there is no '_' |
| BidsApp.KeyOfTwoFields | bin/dm_bids_app.py:528 | for a subject with exactly one '_', the longitudinal key is the field before it |
| BidsApp.KeyOfSeveralFields | bin/dm_bids_app.py:528 | for a subject with more than one '_', the longitudinal key is the first field, '_', and the key of the text after the first '_' |
| BidsApp.MembersAppend | bin/dm_bids_app.py:531-532 | the subjects of one key, for one more subject, are the old ones plus that subject when it has the key |
| BidsApp.MembersCount | bin/dm_bids_app.py:531-532 | a subject appears in its own group as often as in the input, and in no other group |
| BidsApp.MembersAbsent | bin/dm_bids_app.py:531 | a key that no subject has selects nobody |
| BidsApp.GroupSubjectsPartition | bin/dm_bids_app.py:515-534 | the group keys are exactly the subjects' keys, and each group is the input's subsequence of subjects with that key |
| BidsApp.GroupSubjects | bin/dm_bids_app.py:515-534 | `group_subjects`: a dictionary from key to subjects, each appended in input order; GroupSubjectsPartition states its keys and groups |
| BidsApp.FirstMissing | bin/dm_bids_app.py:171-179 | nothing is reported when all required keys are present; otherwise the first absent key in order is reported |
| BidsApp.ValidateJsonArgs | bin/dm_bids_app.py:166-188 | success (true) exactly when "app", "img" and "bidsargs" are present and the app names a supported strategy; otherwise the first missing key, or an unsupported app |
| BidsApp.ExclusionRoundTrip | bin/dm_bids_app.py:198 | the tag can be read back from its deletion command |
| BidsApp.GetExclusionCmd | bin/dm_bids_app.py:190-199 | one command per tag, in order, each of the form `find $BIDS -name *<tag>* -delete`, since the tag reads back from it |
| BidsApp.JobExclusionLinesAsWritten | bin/dm_bids_app.py:589 | the job's exclusion lines with the branches as written: [''] for a non-empty exclusion list; ExclusionsDroppedAsWritten states the consequence |
| BidsApp.ExclusionsDroppedAsWritten | bin/dm_bids_app.py:589 | as written, a non-empty exclusion list yields no deletion command at all |
| BidsApp.JobExclusionLines | bin/dm_bids_app.py:589 | corrected: one deletion command per requested tag, in order; a single empty line when no tag is requested |
| BidsApp.GenLogRedirect | bin/dm_bids_app.py:485-491 | `gen_log_redirect`: " &>> " and the log directory joined with the subject's log file name; LogRedirectTarget states its target |
| BidsApp.LogFileNameIsPlain | bin/dm_bids_app.py:490-491 | the log file name contains no '/' when the subject and app names contain none |
| BidsApp.LogRedirectTarget | bin/dm_bids_app.py:485-491 | the redirect appends to the file named subject + "_dm_bids_app_" + app + "_log.txt", whatever the log directory, when neither the subject nor the app name contains '/' |
| BidsApp.FilterSubjects | bin/dm_bids_app.py:130-141 | `filter_subjects`: the subjects whose joined output path is not an existing directory; FilterSubjectsCount and FilterSubjectsAppend state which and in what order |
| BidsApp.FilterSubjectsCount | bin/dm_bids_app.py:130-141 | a subject is kept, as often as it is given, exactly when its output directory does not exist |
| BidsApp.FilterSubjectsAppend | bin/dm_bids_app.py:141 | filtering preserves input order: it distributes over concatenation |
| BidsApp.ThreadArg | bin/dm_bids_app.py:467-469 | the node request is made exactly when a thread option was given with a non-empty value, "0" included, and the queue is named "pbs" in any case; it is then `-l nodes=1:ppn=<value>,walltime=24:00:00` |
| BidsApp.ThreadArgRoundTrip | bin/dm_bids_app.py:467-472 | the thread count passed to qsub reads back from the node request as the requested value, and no request can be read from an empty argument |
| BidsApp.ExampleZeroThreadsRequested | bin/dm_bids_app.py:468-469 | a thread option of "0" on queue "PBS" still yields `-l nodes=1:ppn=0,walltime=24:00:00` |
| SharedIds.XnatUrl | bin/dm_link_shared_ids.py:92-96 | the address always contains "https"; it is unchanged when it already does, and otherwise is the address behind "https://" |
| SharedIds.XnatUrlIdempotent | bin/dm_link_shared_ids.py:94-96 | normalising twice is normalising once |
| SharedIds.Lookup | bin/dm_link_shared_ids.py:216-219 | a field is found exactly when some entry has the key, and it is that entry's value |
| SharedIds.StudyOf | bin/dm_link_shared_ids.py:227-230 | a record has a study exactly when it has a datman ID, and it is that ID's study |
| SharedIds.MatchesStudy | bin/dm_link_shared_ids.py:222-225 | `matches_study`: the study tag equals the record's study, a missing tag matching a record without study |
| SharedIds.Selected | bin/dm_link_shared_ids.py:123-126 | the record filter: the record has an ID and matches the study; SelectRecordsIsFilter and FilterSelectedComplete state the selection through it |
| SharedIds.SharedIds | bin/dm_link_shared_ids.py:232-250 | every shared ID is non-empty and parses as a datman ID, and there are no more IDs than fields |
| SharedIds.SharedIdsSound | bin/dm_link_shared_ids.py:235-249 | every shared ID is the stripped value of a field whose key contains "shared_parid" |
| SharedIds.SharedIdsComplete | bin/dm_link_shared_ids.py:239-250 | every such field with a non-empty, parsable stripped value contributes it |
| SharedIds.SharedIdsAppend | bin/dm_link_shared_ids.py:239-250 | shared IDs follow field order: consecutive fields give consecutive IDs |
| SharedIds.SharedFields | bin/dm_link_shared_ids.py:233-237 | the selected fields are fields of the record whose keys contain "shared_parid", and every field whose key contains it is selected |
| SharedIds.SharedFieldsAppend | bin/dm_link_shared_ids.py:235-237 | the selected fields keep the record's field order: selection distributes over concatenation |
| SharedIds.SharedIdsReadOnlySharedFields | bin/dm_link_shared_ids.py:233-237 | only fields whose key contains "shared_parid" are read: the result equals that of the selected fields alone |
| SharedIds.MakeRecord | bin/dm_link_shared_ids.py:214-220 | a missing "record_id", "par_id" or "cmts" is reported, first one first; otherwise the record carries the `record_id` and `cmts` values, the parse of `par_id` as ID, no study when it does not parse and its study when it does, and the record's shared IDs |
| SharedIds.SelectedIffStudyOfId | bin/dm_link_shared_ids.py:122-126 | for a configured study tag, a record is kept exactly when it matches the study, exactly when its `par_id` parses to an ID of that study |
| SharedIds.SelectRecords | bin/dm_link_shared_ids.py:119-129 | succeeds exactly when every item makes a record, and keeps only records with an ID and the matching study |
| SharedIds.SelectRecordsFirstError | bin/dm_link_shared_ids.py:121-122 | the error reported is that of the first item that does not make a record |
| SharedIds.AllRecords | bin/dm_link_shared_ids.py:121-122 | one record per response item, in order |
| SharedIds.SelectRecordsIsFilter | bin/dm_link_shared_ids.py:119-129 | the selection is exactly the response's records that have an ID and match the study, in response order |
| SharedIds.FilterSelectedComplete | bin/dm_link_shared_ids.py:123-126 | every record that passes the filter is in the selection |
| SharedIds.ProjectRecords | bin/dm_link_shared_ids.py:111-129 | a status other than 200 is an error; otherwise every returned record has an ID and the study, and every record that passes the filter is returned |
| SharedIds.FirstExperiment | bin/dm_link_shared_ids.py:170-180 | no experiment for an empty list; otherwise the first one listed |
| SharedIds.FirstExperimentIgnoresLater | bin/dm_link_shared_ids.py:176-180 | when there is an experiment, those listed after the first change nothing |

## Left out

- Network access, the XNAT and REDCap clients, downloads, temporary
  directories, logging and process exits are foreign effects. Their outcomes
  are inputs: a session that cannot be fetched, a failed download, the
  downloaded member list, the HTTP status and records, and the destination
  listing.
- The DICOM header reader (`datman.utils.get_archive_headers`) and the
  resource lister (`datman.utils.get_resources`) are not part of this model. A
  local archive is given as what they return. An archive they cannot read is
  taken to raise and end the run (`SessionSync.Decide`: `Crashed`).
- MirroredSessionIsSkipped: idempotence across runs is not modelled. Nothing
  relates the archive a run writes to what the header reader and resource
  lister return on the next run, and UnmovableMiscMembersLost shows that a
  rebuilt zip can lose resources, so a later run may fetch that session again.
- A downloaded archive that cannot be opened or rezipped raises in
  `restructure_zip` (bin/xnat_fetch_sessions.py:142, outside any `try`) and
  ends the run. The model takes every download as a readable member list and
  records it as written.
- The final replacement of the destination zip is not modelled as a file
  operation. A written archive is recorded in the action log.
- SessionSync.GetSessions: the destination listing is taken once, before the
  loop. This is what the code does; the model therefore does not see archives
  written earlier in the same run.
- ArchiveLayout.RestructureZip: directories are not modelled as separate
  members. The result is the set of member names; a directory entry in the
  downloaded list (a name ending in '/') is treated as a name like any other
  and relocated or kept by the same rules. Empty directories that
  `remove_empty_dirs` leaves are not represented. A file whose name ends in
  "SNAPSHOTS" without a trailing '/' is treated as a file.
- Text.Lower and Text.Upper map ASCII letters only. Python's full Unicode case
  mapping is not modelled.
- Text.Strip uses the whitespace set of Python 2.7's Unicode `strip` (Unicode
  5.2 data): ASCII 9-13 and 28-32 and the Unicode space separators, U+180E
  included. That is what the decoded REDCap
  values are stripped with. The credentials file is read as a Python 2 byte
  string, whose `strip` removes only ASCII 9-13 and 32. The two differ on
  ASCII 28-31 and on non-ASCII bytes: the line "alice" followed by byte 0x1c
  and a newline gives that byte back in the program, and "alice" in the model.
- BidsApp.GetDictArgs takes the JSON values already rendered by `str(v)`; the
  rendering of JSON numbers, lists and objects is not modelled.
- BidsApp.ValidateJsonArgs: a non-string app value is reported as unsupported.
  The program raises for it too, though as a `TypeError` when the value is
  unhashable.
- BidsApp.ThreadArg takes the thread option as the string `get_dict_args`
  made of it, or None when it is absent. `get_requested_threads`
  (bin/dm_bids_app.py:493-513) looks it up and rejects values that are not
  whole numbers through a floating-point conversion; that check is left out.
- The job-script text (`get_init_cmd`, the app-specific command builders, the
  `main` glue), job submission through `qsub`, and the JSON file reading are
  left out. They are I/O and string templates with no decision logic beyond
  what is modelled.
- The datman ID parser (`datman.scanid.parse`) is a parameter. A parse
  exception is modelled as None.
- `link_shared_ids`, `update_xnat_comment`, `update_xnat_shared_ids` and
  `make_links` write to XNAT and the file system, and are left out.
- `get_redcap_token` reads a credentials file through code that is not part of
  this model.
- SharedIds.FirstExperiment returns the experiment's name. The remote lookup
  of that name is left out.
- bin/dm_proc_dtiprep.py, bin/dm_symlink_scans.py, bin/opt_cu1_link.py and
  datman/exceptions.py are outside the modelled core.

## Findings

| source | as written | input that shows it | evidently intended | confidence | as-written member | corrected member |
|---|---|---|---|---|---|---|
| bin/dm_bids_app.py:589 | `[''] if exclude else get_exclusion_cmd(exclude)`: the branches are swapped, so requested exclusions yield one empty line and no deletion command | `exclude = ["T2"]` gives `['']` instead of `['find $BIDS -name *T2* -delete']` | `get_exclusion_cmd(exclude) if exclude else ['']` | high; not executed | BidsApp.ExclusionsDroppedAsWritten | BidsApp.JobExclusionLines |

=== FILE: archive_check.dfy ===
/** The freshness decision of the session fetcher: does a local session zip
    still hold everything the remote session lists?  The zip is seen through
    what the fetcher reads from it (DICOM headers per member and the resource
    file names); the remote session is a plain record of what the server
    reports. */
module ArchiveCheck {
  import opened Text

  /** The two header fields the fetcher reads from each DICOM member. */
  datatype DicomHeader = DicomHeader(studyUid: string, seriesUid: string)

  /** One entry of the archive's header dictionary: member name and header. */
  datatype HeaderEntry = HeaderEntry(member: string, header: DicomHeader)

  /** A readable local zip: its header dictionary in iteration order and the
      resource files listed inside it. */
  datatype LocalArchive = LocalArchive(headers: seq<HeaderEntry>, resources: seq<string>)

  /** What the server reports for one session. `hasExperiment` is the truth
      value of the session's experiment; the other fields are only consulted
      when it holds. */
  datatype RemoteSession = RemoteSession(
    name: string,
    hasExperiment: bool,
    experimentUid: string,
    scanUids: seq<string>,
    resources: seq<string>)

  // --------------------------------------------------- header projections

  /** The StudyInstanceUID of every header, in dictionary order. */
  function ExperimentIds(headers: seq<HeaderEntry>): (ids: seq<string>)
    ensures |ids| == |headers|
    ensures forall i :: 0 <= i < |headers| ==> ids[i] == headers[i].header.studyUid
  {
    if |headers| == 0 then []
    else [headers[0].header.studyUid] + ExperimentIds(headers[1..])
  }

  /** The SeriesInstanceUID of every header, in dictionary order. */
  function ScanUids(headers: seq<HeaderEntry>): (uids: seq<string>)
    ensures |uids| == |headers|
    ensures forall i :: 0 <= i < |headers| ==> uids[i] == headers[i].header.seriesUid
  {
    if |headers| == 0 then []
    else [headers[0].header.seriesUid] + ScanUids(headers[1..])
  }

  // ------------------------------------------------------ files_downloaded

  /** Python's `[os.path.basename(item) for item in items]`. */
  function Basenames(items: seq<string>): (names: seq<string>)
    ensures |names| == |items|
    ensures forall i :: 0 <= i < |items| ==> names[i] == Basename(items[i])
  {
    seq(|items|, i requires 0 <= i < |items| => Basename(items[i]))
  }

  /** Some item of `items` has basename `b`. */
  ghost predicate HasBasename(items: seq<string>, b: string) {
    exists j :: 0 <= j < |items| && Basename(items[j]) == b
  }

  /** The local list covers the remote one: it is at least as long, and every
      remote basename is the basename of some local item. */
  function FilesDownloaded(local: seq<string>, remote: seq<string>): (ok: bool)
    ensures ok <==> |local| >= |remote| && forall i :: 0 <= i < |remote| ==> HasBasename(local, Basename(remote[i]))
  {
    var localNames := Basenames(local);
    var remoteNames := Basenames(remote);
    assert forall i :: 0 <= i < |remote| ==> (remoteNames[i] in localNames <==> HasBasename(local, Basename(remote[i]))) by {
      forall i | 0 <= i < |remote|
        ensures remoteNames[i] in localNames <==> HasBasename(local, Basename(remote[i]))
      {
        if remoteNames[i] in localNames {
          var j :| 0 <= j < |localNames| && localNames[j] == remoteNames[i];
          assert Basename(local[j]) == Basename(remote[i]);
        }
        if HasBasename(local, Basename(remote[i])) {
          var j :| 0 <= j < |local| && Basename(local[j]) == Basename(remote[i]);
          assert localNames[j] == remoteNames[i];
        }
      }
    }
    |localNames| >= |remoteNames| && forall i :: 0 <= i < |remoteNames| ==> remoteNames[i] in localNames
  }

  /** Only basenames matter: replacing items by items with the same basenames
      does not change the verdict. */
  lemma FilesDownloadedByBasename(local: seq<string>, local': seq<string>, remote: seq<string>, remote': seq<string>)
    requires |local| == |local'| && |remote| == |remote'|
    requires forall i :: 0 <= i < |local| ==> Basename(local[i]) == Basename(local'[i])
    requires forall i :: 0 <= i < |remote| ==> Basename(remote[i]) == Basename(remote'[i])
    ensures FilesDownloaded(local, remote) == FilesDownloaded(local', remote')
  {
    assert Basenames(local) == Basenames(local');
    assert Basenames(remote) == Basenames(remote');
  }

  /** Every item placed under its own directory. */
  function Reroot(dirs: seq<string>, items: seq<string>): (paths: seq<string>)
    requires |dirs| == |items|
    ensures |paths| == |items|
    ensures forall i :: 0 <= i < |items| ==> paths[i] == dirs[i] + "/" + items[i]
  {
    seq(|items|, i requires 0 <= i < |items| => dirs[i] + "/" + items[i])
  }

  /** Moving local and remote items under arbitrary directories leaves the
      verdict unchanged. */
  lemma FilesDownloadedIgnoresDirectories(
    localDirs: seq<string>, local: seq<string>, remoteDirs: seq<string>, remote: seq<string>)
    requires |localDirs| == |local| && |remoteDirs| == |remote|
    ensures FilesDownloaded(Reroot(localDirs, local), Reroot(remoteDirs, remote))
         == FilesDownloaded(local, remote)
  {
    var l := Reroot(localDirs, local);
    var r := Reroot(remoteDirs, remote);
    forall i | 0 <= i < |local|
      ensures Basename(l[i]) == Basename(local[i])
    {
      BasenameAfterSlash(localDirs[i], local[i]);
    }
    forall i | 0 <= i < |remote|
      ensures Basename(r[i]) == Basename(remote[i])
    {
      BasenameAfterSlash(remoteDirs[i], remote[i]);
    }
    FilesDownloadedByBasename(l, local, r, remote);
  }

  /** Extra local items never make a covered list uncovered. */
  lemma FilesDownloadedMonotone(local: seq<string>, extra: seq<string>, remote: seq<string>)
    requires FilesDownloaded(local, remote)
    ensures FilesDownloaded(local + extra, remote)
  {
    forall i | 0 <= i < |remote|
      ensures HasBasename(local + extra, Basename(remote[i]))
    {
      var j :| 0 <= j < |local| && Basename(local[j]) == Basename(remote[i]);
      assert (local + extra)[j] == local[j];
    }
  }

  lemma {:induction false} FilesDownloadedReflexive(items: seq<string>)
    ensures FilesDownloaded(items, items)
  {
    forall i | 0 <= i < |items|
      ensures HasBasename(items, Basename(items[i]))
    {
    }
  }

  // --------------------------------------------------------- update_needed

  /** The archive's headers all name `uid` as their study, and there is at
      least one header. */
  ghost predicate SingleExperiment(headers: seq<HeaderEntry>, uid: string) {
    |headers| > 0 && forall i :: 0 <= i < |headers| ==> headers[i].header.studyUid == uid
  }

  /** A set of at most one value that contains `u` is exactly the sequences
      whose every element is `u`. */
  lemma AtMostOneDistinct(ids: seq<string>, u: string)
    ensures (|set x | x in ids| <= 1 && u in ids) <==> (|ids| > 0 && forall i :: 0 <= i < |ids| ==> ids[i] == u)
  {
    var s := set x | x in ids;
    if |s| <= 1 && u in ids {
      var others := s - {u};
      assert |others| == |s| - 1;
      assert others == {};
      forall i | 0 <= i < |ids|
        ensures ids[i] == u
      {
        assert ids[i] in s && ids[i] !in others;
      }
    }
    if |ids| > 0 && forall i :: 0 <= i < |ids| ==> ids[i] == u {
      assert ids[0] in ids;
      assert s == {u};
    }
  }

  /** `update_needed`: after the archive's headers are read, no experiment on
      the server, more than one StudyInstanceUID in the archive, or an archive
      that does not carry the server's experiment UID all answer false; past
      those guards the answer is true exactly when the resource list or the
      scan-UID list is not covered. */
  function UpdateNeeded(archive: LocalArchive, session: RemoteSession): (needed: bool)
    ensures !session.hasExperiment ==> !needed
    ensures needed <==>
              && session.hasExperiment
              && SingleExperiment(archive.headers, session.experimentUid)
              && (|| !FilesDownloaded(archive.resources, session.resources)
                  || !FilesDownloaded(ScanUids(archive.headers), session.scanUids))
  {
    var experimentIds := ExperimentIds(archive.headers);
    AtMostOneDistinct(experimentIds, session.experimentUid);
    if !session.hasExperiment then false
    else if |set u | u in experimentIds| > 1 then false
    else if session.experimentUid !in experimentIds then false
    else
      !FilesDownloaded(archive.resources, session.resources)
      || !FilesDownloaded(ScanUids(archive.headers), session.scanUids)
  }

  /** An archive whose headers name two different experiments is left alone. */
  lemma MixedArchiveIsLeftAlone(archive: LocalArchive, session: RemoteSession, i: int, j: int)
    requires 0 <= i < |archive.headers| && 0 <= j < |archive.headers|
    requires archive.headers[i].header.studyUid != archive.headers[j].header.studyUid
    ensures !UpdateNeeded(archive, session)
  {
    assert !(archive.headers[i].header.studyUid == session.experimentUid
             && archive.headers[j].header.studyUid == session.experimentUid);
    assert !SingleExperiment(archive.headers, session.experimentUid);
  }

  /** An archive none of whose headers carries the server's experiment UID is
      left alone, not re-fetched. */
  lemma ForeignArchiveIsLeftAlone(archive: LocalArchive, session: RemoteSession)
    requires forall i :: 0 <= i < |archive.headers| ==> archive.headers[i].header.studyUid != session.experimentUid
    ensures !UpdateNeeded(archive, session)
  {
    if |archive.headers| > 0 {
      assert archive.headers[0].header.studyUid != session.experimentUid;
    }
    assert !SingleExperiment(archive.headers, session.experimentUid);
  }

  /** An archive judged current, past the guards, holds every remote scan UID
      and every remote resource basename. */
  lemma CurrentArchiveIsComplete(archive: LocalArchive, session: RemoteSession)
    requires session.hasExperiment && SingleExperiment(archive.headers, session.experimentUid)
    requires !UpdateNeeded(archive, session)
    ensures forall k :: 0 <= k < |session.scanUids| ==>
              exists i :: 0 <= i < |archive.headers| && Basename(archive.headers[i].header.seriesUid) == Basename(session.scanUids[k])
    ensures forall k :: 0 <= k < |session.resources| ==> HasBasename(archive.resources, Basename(session.resources[k]))
    ensures |archive.headers| >= |session.scanUids| && |archive.resources| >= |session.resources|
  {
    var uids := ScanUids(archive.headers);
    forall k | 0 <= k < |session.scanUids|
      ensures exists i :: 0 <= i < |archive.headers| && Basename(archive.headers[i].header.seriesUid) == Basename(session.scanUids[k])
    {
      assert HasBasename(uids, Basename(session.scanUids[k]));
      var i :| 0 <= i < |uids| && Basename(uids[i]) == Basename(session.scanUids[k]);
      assert Basename(archive.headers[i].header.seriesUid) == Basename(session.scanUids[k]);
    }
  }

  /** Extra local content (more headers, more resource files) never turns an
      archive that passed the guards and was found current into one that
      needs an update. */
  lemma ExtraLocalContentStaysCurrent(
    archive: LocalArchive, session: RemoteSession, more: seq<HeaderEntry>, moreResources: seq<string>)
    requires session.hasExperiment && SingleExperiment(archive.headers, session.experimentUid)
    requires !UpdateNeeded(archive, session)
    ensures !UpdateNeeded(LocalArchive(archive.headers + more, archive.resources + moreResources), session)
  {
    var grown := LocalArchive(archive.headers + more, archive.resources + moreResources);
    FilesDownloadedMonotone(archive.resources, moreResources, session.resources);
    ScanUidsAppend(archive.headers, more);
    FilesDownloadedMonotone(ScanUids(archive.headers), ScanUids(more), session.scanUids);
    CoveredIsCurrent(grown, session);
  }

  lemma ScanUidsAppend(a: seq<HeaderEntry>, b: seq<HeaderEntry>)
    ensures ScanUids(a + b) == ScanUids(a) + ScanUids(b)
  {
  }

  /** Past the guards, an archive covering both remote lists is current. */
  lemma CoveredIsCurrent(archive: LocalArchive, session: RemoteSession)
    requires FilesDownloaded(archive.resources, session.resources)
    requires FilesDownloaded(ScanUids(archive.headers), session.scanUids)
    ensures !UpdateNeeded(archive, session)
  {
  }

  /** The archive a faithful download of `session` would produce: one header
      per remote scan, all carrying the session's experiment UID, and the
      session's resources. */
  function Mirror(session: RemoteSession, members: seq<string>): (archive: LocalArchive)
    requires |members| == |session.scanUids|
    ensures ScanUids(archive.headers) == session.scanUids
    ensures forall i :: 0 <= i < |archive.headers| ==> ExperimentIds(archive.headers)[i] == session.experimentUid
    ensures archive.resources == session.resources
  {
    var headers := seq(|members|, i requires 0 <= i < |members| =>
      HeaderEntry(members[i], DicomHeader(session.experimentUid, session.scanUids[i])));
    LocalArchive(headers, session.resources)
  }

  /** Checking a faithful copy of the session never asks for a new
      download. */
  lemma MirrorIsCurrent(session: RemoteSession, members: seq<string>)
    requires |members| == |session.scanUids|
    ensures !UpdateNeeded(Mirror(session, members), session)
  {
    var archive := Mirror(session, members);
    if session.hasExperiment && SingleExperiment(archive.headers, session.experimentUid) {
      assert ScanUids(archive.headers) == session.scanUids;
      FilesDownloadedReflexive(session.scanUids);
      FilesDownloadedReflexive(session.resources);
    }
  }

  // --------------------------------------------------------------- examples

  function ExampleSession(): RemoteSession {
    RemoteSession("SUBJ01", true, "E1", ["S1", "S2"], ["a.txt"])
  }

  /** Local scans {S1, S2, S3} and resources {a.txt, b.txt} under experiment E1
      cover the remote session: no update. */
  lemma ExampleSupersetIsCurrent()
    ensures !UpdateNeeded(
              LocalArchive(
                [HeaderEntry("1.dcm", DicomHeader("E1", "S1")),
                 HeaderEntry("2.dcm", DicomHeader("E1", "S2")),
                 HeaderEntry("3.dcm", DicomHeader("E1", "S3"))],
                ["a.txt", "b.txt"]),
              ExampleSession())
  {
    var headers := [HeaderEntry("1.dcm", DicomHeader("E1", "S1")),
                    HeaderEntry("2.dcm", DicomHeader("E1", "S2")),
                    HeaderEntry("3.dcm", DicomHeader("E1", "S3"))];
    assert ScanUids(headers) == ["S1", "S2", "S3"];
    PrefixIsCovered(["a.txt", "b.txt"], ["a.txt"]);
    PrefixIsCovered(["S1", "S2", "S3"], ["S1", "S2"]);
  }

  /** A local list that starts with the remote list covers it. */
  lemma PrefixIsCovered(local: seq<string>, remote: seq<string>)
    requires |remote| <= |local| && remote == local[..|remote|]
    ensures FilesDownloaded(local, remote)
  {
    forall i | 0 <= i < |remote|
      ensures HasBasename(local, Basename(remote[i]))
    {
      assert local[i] == remote[i];
    }
  }

  /** The same session against a local archive with only scan S1: update. */
  lemma ExampleMissingScanIsStale()
    ensures UpdateNeeded(
              LocalArchive([HeaderEntry("1.dcm", DicomHeader("E1", "S1"))], ["a.txt"]),
              ExampleSession())
  {
    var archive := LocalArchive([HeaderEntry("1.dcm", DicomHeader("E1", "S1"))], ["a.txt"]);
    assert SingleExperiment(archive.headers, "E1");
    assert |ScanUids(archive.headers)| == 1;
  }

  /** An archive of a different experiment is left alone, not re-fetched. */
  lemma ExampleOtherExperimentIsLeftAlone()
    ensures !UpdateNeeded(
              LocalArchive([HeaderEntry("1.dcm", DicomHeader("E2", "S1"))], []),
              ExampleSession())
  {
  }
}

=== FILE: archive_layout.dfy ===
/** Normalisation of a freshly downloaded session zip. An archive is seen as
    its list of member paths. When no member lies under `resources/MISC/` the
    zip is moved to its destination untouched; otherwise it is extracted, the
    items directly under `resources/MISC/` are moved to the top level, every
    `SNAPSHOTS` directory is deleted, the `resources/` tree is deleted, and
    what is left is zipped again at the destination. */
module ArchiveLayout {
  import opened Text

  /** The one nesting prefix known to need flattening. */
  const BadPrefix: string := "resources/MISC/"

  /** The top-level folder deleted after flattening. */
  const ResourcesDir: string := "resources/"

  /** `bad_folders_exist`: does any member name start with `prefix`? */
  function BadFoldersExist(names: seq<string>, prefix: string): (found: bool)
    ensures found <==> exists i :: 0 <= i < |names| && StartsWith(names[i], prefix)
  {
    if |names| == 0 then false
    else if StartsWith(names[0], prefix) then true
    else
      var rest := BadFoldersExist(names[1..], prefix);
      assert forall i :: 0 < i < |names| ==> names[i] == names[1..][i - 1];
      rest
  }

  // ---------------------------------------------------------- path shapes

  /** The first component of a path: the file or folder it creates at the
      top of the extraction directory. */
  function FirstComponent(path: string): string {
    Split(path, '/')[0]
  }

  /** The path lies inside a directory named `SNAPSHOTS` at some depth: one
      of its components other than the last is `SNAPSHOTS`. */
  predicate InSnapshots(path: string) {
    var parts := Split(path, '/');
    exists i | 0 <= i < |parts| - 1 :: parts[i] == "SNAPSHOTS"
  }

  /** Names present at the top of the extraction directory. */
  function TopLevelNames(names: seq<string>): set<string> {
    set e | e in names :: FirstComponent(e)
  }

  /** A child of `resources/MISC/` is moved up when the `*` glob lists it (a
      non-empty name not starting with '.') and nothing of the same name
      already sits at the top; otherwise the move fails, is logged, and the
      child stays where it was. */
  predicate Movable(child: string, top: set<string>) {
    child != "" && child[0] != '.' && child !in top
  }

  /** Where one member ends up after the flattening step. */
  function Relocate(entry: string, top: set<string>): (moved: string)
    ensures moved == entry || entry == BadPrefix + moved
  {
    if StartsWith(entry, BadPrefix) && Movable(FirstComponent(entry[|BadPrefix|..]), top) then
      assert entry == BadPrefix + entry[|BadPrefix|..];
      entry[|BadPrefix|..]
    else entry
  }

  /** A path left in place by snapshot removal and by deleting `resources/`. */
  predicate Survives(path: string) {
    !InSnapshots(path) && !StartsWith(path, ResourcesDir)
  }

  /** The archive written at the destination: either the downloaded zip
      itself, or a new zip of the normalised tree. */
  datatype Restructured = MovedAsIs(names: seq<string>) | Rezipped(entries: set<string>)

  /** `restructure_zip` on the downloaded archive's member list. */
  function RestructureZip(names: seq<string>): (out: Restructured)
    ensures out.MovedAsIs? <==> !exists i :: 0 <= i < |names| && StartsWith(names[i], BadPrefix)
    ensures out.MovedAsIs? ==> out.names == names
    ensures out.Rezipped? ==> forall p :: p in out.entries ==> !StartsWith(p, ResourcesDir) && !InSnapshots(p)
    ensures out.Rezipped? ==> forall p :: p in out.entries ==> p in names || BadPrefix + p in names
  {
    if !BadFoldersExist(names, BadPrefix) then MovedAsIs(names)
    else
      var top := TopLevelNames(names);
      Rezipped(set e | e in names && Survives(Relocate(e, top)) :: Relocate(e, top))
  }

  // ------------------------------------------------------ what is kept

  /** A path below folder `dir` has `dir` as its first component. */
  lemma FirstComponentOfNested(path: string, dir: string)
    requires '/' !in dir && StartsWith(path, dir + "/")
    ensures FirstComponent(path) == dir
  {
    assert path[|dir|] == '/';
    assert path[..|dir|] == dir;
    IndexOfIsFirst(path, '/', |dir|);
  }

  /** Members outside `resources/` and outside any `SNAPSHOTS` directory are
      kept at their own path. */
  lemma OtherMembersKept(names: seq<string>, e: string)
    requires BadFoldersExist(names, BadPrefix)
    requires e in names && Survives(e)
    ensures RestructureZip(names).Rezipped? && e in RestructureZip(names).entries
  {
    var top := TopLevelNames(names);
    assert !StartsWith(e, BadPrefix) by {
      assert BadPrefix[..|ResourcesDir|] == ResourcesDir;
    }
    assert Relocate(e, top) == e;
  }

  /** A child of `resources/MISC/` that can be moved, and whatever lies below
      it outside `SNAPSHOTS` directories, ends up at the top level. */
  lemma MiscMembersFlattened(names: seq<string>, rest: string)
    requires BadPrefix + rest in names
    requires Movable(FirstComponent(rest), TopLevelNames(names))
    requires !InSnapshots(rest)
    ensures RestructureZip(names).Rezipped? && rest in RestructureZip(names).entries
  {
    var e := BadPrefix + rest;
    var top := TopLevelNames(names);
    assert StartsWith(e, BadPrefix);
    assert e[|BadPrefix|..] == rest;
    assert Relocate(e, top) == rest;
    FirstComponentOfNested(e, "resources");
    assert "resources" in top;
    if StartsWith(rest, ResourcesDir) {
      FirstComponentOfNested(rest, "resources");
      assert false;
    }
    assert Survives(rest);
  }

  /** A child of `resources/MISC/` that cannot be moved (hidden, or its name
      already taken at the top level) stays in place and is deleted with
      `resources/`: its contents do not reach the output. */
  lemma UnmovableMiscMembersLost(names: seq<string>, rest: string)
    requires BadPrefix + rest in names
    requires !Movable(FirstComponent(rest), TopLevelNames(names))
    requires rest !in names
    ensures RestructureZip(names).Rezipped? && rest !in RestructureZip(names).entries
  {
    var top := TopLevelNames(names);
    assert StartsWith(BadPrefix + rest, BadPrefix);
    forall e | e in names
      ensures Relocate(e, top) != rest
    {
      if Relocate(e, top) != e {
        assert e == BadPrefix + Relocate(e, top);
        assert e[|BadPrefix|..] == Relocate(e, top);
        assert Movable(FirstComponent(Relocate(e, top)), top);
      }
    }
  }
}

=== FILE: bids_app.dfy ===
/** The pure helpers of the BIDS-app job builder: turning the JSON argument
    dictionary into command-line flags, checking the JSON for required keys,
    grouping subjects (per session, or per participant in longitudinal
    mode), filtering subjects already processed, and building the small
    shell fragments of the job script. */
module BidsApp {
  import opened Common
  import opened Text

  // ------------------------------------------------------- get_dict_args

  /** The flag a JSON key turns into: "--" and the key in lower case. */
  function FlagName(key: string): string {
    "--" + Lower(key)
  }

  /** An entry survives unless its rendered value is "false" in any case. */
  predicate Kept(value: string) {
    Lower(value) != "false"
  }

  /** A boolean "true" becomes a bare flag; any other value is passed on. */
  function FlagValue(value: string): string {
    if Lower(value) == "true" then "" else value
  }

  /** `get_dict_args`. The JSON dictionary is given as its (key, str(value))
      pairs in dictionary order; when two keys lower-case to the same flag,
      the later entry overwrites the earlier one. */
  function GetDictArgs(args: seq<(string, string)>): map<string, string>
    decreases |args|
  {
    if |args| == 0 then map[]
    else
      var flags := GetDictArgs(args[..|args| - 1]);
      var (key, value) := args[|args| - 1];
      if Kept(value) then flags[FlagName(key) := FlagValue(value)] else flags
  }

  /** Entry `i` produces flag `f`. */
  ghost predicate SetsFlag(args: seq<(string, string)>, i: int, f: string) {
    0 <= i < |args| && Kept(args[i].1) && FlagName(args[i].0) == f
  }

  /** Entry `i` is the last one that produces flag `f`. */
  ghost predicate LastSetter(args: seq<(string, string)>, i: int, f: string) {
    SetsFlag(args, i, f) && forall j :: i < j < |args| ==> !SetsFlag(args, j, f)
  }

  /** The flags produced are exactly "--" + lower(k) for the keys k whose
      value is not "false". */
  lemma {:induction false} GetDictArgsKeys(args: seq<(string, string)>)
    ensures forall f :: f in GetDictArgs(args) <==> exists i :: SetsFlag(args, i, f)
    decreases |args|
  {
    if |args| > 0 {
      var init := args[..|args| - 1];
      GetDictArgsKeys(init);
      var n := |args| - 1;
      forall f
        ensures f in GetDictArgs(args) <==> exists i :: SetsFlag(args, i, f)
      {
        if f in GetDictArgs(args) {
          if SetsFlag(args, n, f) {
          } else {
            assert f in GetDictArgs(init);
            var i :| SetsFlag(init, i, f);
            assert SetsFlag(args, i, f);
          }
        }
        if i :| SetsFlag(args, i, f) {
          if i < n {
            assert SetsFlag(init, i, f);
            assert f in GetDictArgs(init);
          }
        }
      }
    }
  }

  /** Each flag carries the value of the last entry producing it: "" when
      that entry's value is "true" in any case, its value otherwise. */
  lemma {:induction false} GetDictArgsValues(args: seq<(string, string)>)
    ensures forall f :: f in GetDictArgs(args) ==>
              exists i :: LastSetter(args, i, f) && GetDictArgs(args)[f] == FlagValue(args[i].1)
    decreases |args|
  {
    if |args| > 0 {
      var n := |args| - 1;
      var init := args[..n];
      GetDictArgsValues(init);
      forall f | f in GetDictArgs(args)
        ensures exists i :: LastSetter(args, i, f) && GetDictArgs(args)[f] == FlagValue(args[i].1)
      {
        if SetsFlag(args, n, f) {
          assert LastSetter(args, n, f);
        } else {
          assert f in GetDictArgs(init);
          var i :| LastSetter(init, i, f) && GetDictArgs(init)[f] == FlagValue(init[i].1);
          assert SetsFlag(args, i, f);
          forall j | i < j < |args|
            ensures !SetsFlag(args, j, f)
          {
            if j < n {
              assert !SetsFlag(init, j, f);
            }
          }
          assert LastSetter(args, i, f);
        }
      }
    }
  }

  /** With no two keys colliding after lower-casing, every kept entry shows
      up as its own flag with its own value. */
  lemma GetDictArgsDistinctKeys(args: seq<(string, string)>, i: int)
    requires forall j, k :: 0 <= j < k < |args| ==> FlagName(args[j].0) != FlagName(args[k].0)
    requires 0 <= i < |args| && Kept(args[i].1)
    ensures FlagName(args[i].0) in GetDictArgs(args)
    ensures GetDictArgs(args)[FlagName(args[i].0)] == FlagValue(args[i].1)
  {
    var f := FlagName(args[i].0);
    GetDictArgsKeys(args);
    assert SetsFlag(args, i, f);
    GetDictArgsValues(args);
    var w :| LastSetter(args, w, f) && GetDictArgs(args)[f] == FlagValue(args[w].1);
    assert w == i;
  }

  // ------------------------------------------------------ group_subjects

  /** The grouping key: in longitudinal mode the subject with its last
      '_'-separated field dropped, otherwise the subject itself. */
  function GroupKey(subject: string, longitudinal: bool): string {
    if longitudinal then
      var fields := Split(subject, '_');
      Join(fields[..|fields| - 1], '_')
    else subject
  }

  /** `k` is the part of `subject` before its last '_'. */
  predicate BeforeLastSeparator(subject: string, k: string) {
    && |k| < |subject| && k == subject[..|k|]
    && subject[|k|] == '_' && '_' !in subject[|k| + 1..]
  }

  /** The longitudinal key is the text before the last '_', or "" when there
      is none. */
  lemma {:induction false} LongitudinalKeyDropsLastField(subject: string)
    ensures '_' !in subject ==> GroupKey(subject, true) == ""
    ensures '_' in subject ==> BeforeLastSeparator(subject, GroupKey(subject, true))
    decreases |subject|
  {
    if '_' !in subject {
      KeyOfOneField(subject);
    } else {
      var i := IndexOf(subject, '_');
      if '_' in subject[i + 1..] {
        LongitudinalKeyDropsLastField(subject[i + 1..]);
        KeyOfSeveralFields(subject, i);
        KeyThroughSeparator(subject, i, GroupKey(subject[i + 1..], true));
      } else {
        KeyOfTwoFields(subject, i);
      }
    }
  }

  /** Without '_', the longitudinal key is empty. */
  lemma KeyOfOneField(subject: string)
    requires '_' !in subject
    ensures GroupKey(subject, true) == ""
  {
    assert Split(subject, '_') == [subject];
  }

  /** With a single '_', the longitudinal key is the field before it. */
  lemma KeyOfTwoFields(subject: string, i: nat)
    requires i < |subject| && subject[i] == '_' && '_' !in subject[..i] && '_' !in subject[i + 1..]
    ensures GroupKey(subject, true) == subject[..i]
    ensures BeforeLastSeparator(subject, subject[..i])
  {
    IndexOfIsFirst(subject, '_', i);
    var fields := Split(subject, '_');
    assert Split(subject[i + 1..], '_') == [subject[i + 1..]];
    assert fields == [subject[..i], subject[i + 1..]];
    assert fields[..|fields| - 1] == [subject[..i]];
  }

  /** With more '_'s, the longitudinal key is the first field, '_', and the
      longitudinal key of the rest. */
  lemma KeyOfSeveralFields(subject: string, i: nat)
    requires i < |subject| && subject[i] == '_' && '_' !in subject[..i] && '_' in subject[i + 1..]
    ensures GroupKey(subject, true) == subject[..i] + "_" + GroupKey(subject[i + 1..], true)
  {
    IndexOfIsFirst(subject, '_', i);
    var head := subject[..i];
    var rest := Split(subject[i + 1..], '_');
    var fields := [head] + rest;
    assert Split(subject, '_') == fields;
    var drop := rest[..|rest| - 1];
    assert fields[..|fields| - 1] == [head] + drop;
    JoinCons(head, drop, '_');
  }

  /** Extending the key of the text after a '_' by the text before it. */
  lemma KeyThroughSeparator(subject: string, i: nat, kt: string)
    requires i < |subject| && subject[i] == '_'
    requires BeforeLastSeparator(subject[i + 1..], kt)
    ensures BeforeLastSeparator(subject, subject[..i] + "_" + kt)
  {
    var tail := subject[i + 1..];
    var k := subject[..i] + "_" + kt;
    assert subject == subject[..i] + "_" + tail;
    assert subject[|k|..] == tail[|kt|..];
    assert subject[|k| + 1..] == tail[|kt| + 1..];
  }

  /** The subjects with key `k`, in input order. */
  function Members(subjects: seq<string>, k: string, longitudinal: bool): seq<string> {
    if |subjects| == 0 then []
    else (if GroupKey(subjects[0], longitudinal) == k then [subjects[0]] else [])
         + Members(subjects[1..], k, longitudinal)
  }

  lemma {:induction false} MembersAppend(subjects: seq<string>, s: string, k: string, longitudinal: bool)
    ensures Members(subjects + [s], k, longitudinal)
         == Members(subjects, k, longitudinal) + (if GroupKey(s, longitudinal) == k then [s] else [])
    decreases |subjects|
  {
    if |subjects| == 0 {
      assert [s][1..] == [];
    } else {
      var t := subjects + [s];
      assert t[0] == subjects[0];
      assert t[1..] == subjects[1..] + [s];
      MembersAppend(subjects[1..], s, k, longitudinal);
      ConsAppend(if GroupKey(subjects[0], longitudinal) == k then [subjects[0]] else [],
                 Members(subjects[1..], k, longitudinal),
                 if GroupKey(s, longitudinal) == k then [s] else []);
    }
  }

  /** Every subject occurs in its group as often as in the input; no subject
      occurs in another group. */
  lemma {:induction false} MembersCount(subjects: seq<string>, k: string, longitudinal: bool, s: string)
    ensures multiset(Members(subjects, k, longitudinal))[s]
         == if GroupKey(s, longitudinal) == k then multiset(subjects)[s] else 0
    decreases |subjects|
  {
    if |subjects| > 0 {
      var x := subjects[0];
      var head := if GroupKey(x, longitudinal) == k then [x] else [];
      MembersCount(subjects[1..], k, longitudinal, s);
      assert Members(subjects, k, longitudinal) == head + Members(subjects[1..], k, longitudinal);
      assert subjects == [x] + subjects[1..];
      assert multiset(subjects)[s] == multiset([x])[s] + multiset(subjects[1..])[s];
      assert multiset(Members(subjects, k, longitudinal))[s]
          == multiset(head)[s] + multiset(Members(subjects[1..], k, longitudinal))[s];
    }
  }

  /** `group_subjects`: a dictionary from grouping key to the subjects that
      have it, appended in input order. */
  function GroupSubjects(subjects: seq<string>, longitudinal: bool): map<string, seq<string>>
    decreases |subjects|
  {
    if |subjects| == 0 then map[]
    else
      var groups := GroupSubjects(subjects[..|subjects| - 1], longitudinal);
      var s := subjects[|subjects| - 1];
      var k := GroupKey(s, longitudinal);
      groups[k := (if k in groups then groups[k] else []) + [s]]
  }

  /** The keys are exactly the inputs' keys, and each group is the input's
      subsequence of subjects with that key. */
  lemma {:induction false} GroupSubjectsPartition(subjects: seq<string>, longitudinal: bool)
    ensures GroupSubjects(subjects, longitudinal).Keys == set s | s in subjects :: GroupKey(s, longitudinal)
    ensures forall k :: k in GroupSubjects(subjects, longitudinal) ==>
              GroupSubjects(subjects, longitudinal)[k] == Members(subjects, k, longitudinal)
    decreases |subjects|
  {
    if |subjects| > 0 {
      var init := subjects[..|subjects| - 1];
      var s := subjects[|subjects| - 1];
      assert subjects == init + [s];
      GroupSubjectsPartition(init, longitudinal);
      var groups := GroupSubjects(init, longitudinal);
      forall k | k in GroupSubjects(subjects, longitudinal)
        ensures GroupSubjects(subjects, longitudinal)[k] == Members(subjects, k, longitudinal)
      {
        MembersAppend(init, s, k, longitudinal);
        if k !in groups {
          MembersAbsent(init, k, longitudinal);
        }
      }
    }
  }

  /** A key no subject has selects nobody. */
  lemma {:induction false} MembersAbsent(subjects: seq<string>, k: string, longitudinal: bool)
    requires forall s :: s in subjects ==> GroupKey(s, longitudinal) != k
    ensures Members(subjects, k, longitudinal) == []
    decreases |subjects|
  {
    if |subjects| > 0 {
      assert subjects[0] in subjects;
      assert forall s :: s in subjects[1..] ==> s in subjects;
      MembersAbsent(subjects[1..], k, longitudinal);
    }
  }

  // -------------------------------------------------- validate_json_args

  /** A JSON value as far as the validation looks at it. */
  datatype JsonValue = JString(text: string) | JNonString

  datatype ValidationError = MissingKey(key: string) | UnsupportedApp

  const RequiredKeys: seq<string> := ["app", "img", "bidsargs"]

  /** The first of `keys` absent from the dictionary. */
  function FirstMissing(keys: seq<string>, jargs: map<string, JsonValue>): (missing: Option<string>)
    ensures missing.None? <==> forall i :: 0 <= i < |keys| ==> keys[i] in jargs
    ensures missing.Some? ==>
              exists i :: 0 <= i < |keys| && keys[i] == missing.value && keys[i] !in jargs
                          && forall j :: 0 <= j < i ==> keys[j] in jargs
  {
    if |keys| == 0 then None
    else if keys[0] !in jargs then Some(keys[0])
    else
      var rest := FirstMissing(keys[1..], jargs);
      assert forall i :: 1 <= i < |keys| ==> keys[i] == keys[1..][i - 1];
      rest
  }

  /** `validate_json_args`: true when "app", "img" and "bidsargs" are all
      present and the app names a supported strategy; otherwise the error
      the program raises (the first missing key, or the unsupported app). */
  function ValidateJsonArgs(jargs: map<string, JsonValue>, strategies: set<string>): (r: Result<bool, ValidationError>)
    ensures r.Ok? ==> r.value
    ensures r.Ok? <==> && "app" in jargs && "img" in jargs && "bidsargs" in jargs
                       && jargs["app"].JString? && jargs["app"].text in strategies
    ensures r.Err? && r.error.MissingKey? ==>
              exists i :: 0 <= i < |RequiredKeys| && RequiredKeys[i] == r.error.key && r.error.key !in jargs
                          && forall j :: 0 <= j < i ==> RequiredKeys[j] in jargs
    ensures r == Err(UnsupportedApp) <==> (&& "app" in jargs && "img" in jargs && "bidsargs" in jargs
                                          && !(jargs["app"].JString? && jargs["app"].text in strategies))
  {
    var missing := FirstMissing(RequiredKeys, jargs);
    assert missing.None? <==> "app" in jargs && "img" in jargs && "bidsargs" in jargs by {
      assert RequiredKeys[0] == "app" && RequiredKeys[1] == "img" && RequiredKeys[2] == "bidsargs";
    }
    match missing
    case Some(key) => Err(MissingKey(key))
    case None =>
      match jargs["app"]
      case JString(app) => if app in strategies then Ok(true) else Err(UnsupportedApp)
      case JNonString => Err(UnsupportedApp)
  }

  // --------------------------------------------------- get_exclusion_cmd

  const ExclusionHead: string := "find $BIDS -name *"
  const ExclusionTail: string := "* -delete"

  /** The deletion command for one excluded tag. */
  function ExclusionCommand(tag: string): string {
    ExclusionHead + tag + ExclusionTail
  }

  /** The tag a deletion command removes, if it is one. */
  function ExclusionTag(cmd: string): Option<string> {
    if |cmd| >= |ExclusionHead| + |ExclusionTail|
       && cmd[..|ExclusionHead|] == ExclusionHead
       && cmd[|cmd| - |ExclusionTail|..] == ExclusionTail
    then Some(cmd[|ExclusionHead|..|cmd| - |ExclusionTail|])
    else None
  }

  lemma ExclusionRoundTrip(tag: string)
    ensures ExclusionTag(ExclusionCommand(tag)) == Some(tag)
  {
    var cmd := ExclusionCommand(tag);
    assert cmd[..|ExclusionHead|] == ExclusionHead;
    assert cmd[|cmd| - |ExclusionTail|..] == ExclusionTail;
    assert cmd[|ExclusionHead|..|cmd| - |ExclusionTail|] == tag;
  }

  /** `get_exclusion_cmd`: one command per tag, in order. */
  function GetExclusionCmd(tags: seq<string>): (cmds: seq<string>)
    ensures |cmds| == |tags|
    ensures forall i :: 0 <= i < |tags| ==> ExclusionTag(cmds[i]) == Some(tags[i])
  {
    var cmds := seq(|tags|, i requires 0 <= i < |tags| => ExclusionCommand(tags[i]));
    assert forall i :: 0 <= i < |tags| ==> ExclusionTag(cmds[i]) == Some(tags[i]) by {
      forall i | 0 <= i < |tags| {
        ExclusionRoundTrip(tags[i]);
      }
    }
    cmds
  }

  /** The job's exclusion lines as the program chooses them: the condition
      is inverted, so given tags yield one empty line and no tags yield none. */
  function JobExclusionLinesAsWritten(exclude: seq<string>): seq<string> {
    if |exclude| > 0 then [""] else GetExclusionCmd(exclude)
  }

  /** As written, no requested exclusion ever reaches the job script. */
  lemma ExclusionsDroppedAsWritten(exclude: seq<string>)
    requires |exclude| > 0
    ensures forall i :: 0 <= i < |JobExclusionLinesAsWritten(exclude)| ==>
              ExclusionTag(JobExclusionLinesAsWritten(exclude)[i]).None?
  {
  }

  /** The job's exclusion lines as evidently intended: one deletion command
      per requested tag, or a single empty line when none is requested. */
  function JobExclusionLines(exclude: seq<string>): (lines: seq<string>)
    ensures |exclude| > 0 ==> |lines| == |exclude| && forall i :: 0 <= i < |exclude| ==> ExclusionTag(lines[i]) == Some(exclude[i])
    ensures |exclude| == 0 ==> lines == [""]
  {
    if |exclude| > 0 then GetExclusionCmd(exclude) else [""]
  }

  // ---------------------------------------------------- gen_log_redirect

  /** Append both output streams (bash). */
  const RedirectOp: string := " &>> "

  function LogFileName(subject: string, appName: string): string {
    subject + "_dm_bids_app" + "_" + appName + "_log.txt"
  }

  /** `gen_log_redirect`: append stdout and stderr to the subject's log file
      in the log directory. */
  function GenLogRedirect(logDir: string, subject: string, appName: string): string {
    RedirectOp + PathJoin(logDir, LogFileName(subject, appName))
  }

  lemma LogFileNameIsPlain(subject: string, appName: string)
    requires '/' !in subject && '/' !in appName
    ensures '/' !in LogFileName(subject, appName)
  {
    assert forall k :: 0 <= k < |"_dm_bids_app_"| ==> "_dm_bids_app_"[k] != '/';
    assert forall k :: 0 <= k < |"_log.txt"| ==> "_log.txt"[k] != '/';
    assert LogFileName(subject, appName) == subject + "_dm_bids_app_" + appName + "_log.txt";
  }

  /** The redirect appends to a file named after subject and app, whatever
      the log directory. */
  lemma LogRedirectTarget(logDir: string, subject: string, appName: string)
    requires '/' !in subject && '/' !in appName
    ensures var r := GenLogRedirect(logDir, subject, appName);
            StartsWith(r, RedirectOp) && Basename(r[|RedirectOp|..]) == LogFileName(subject, appName)
  {
    var name := LogFileName(subject, appName);
    LogFileNameIsPlain(subject, appName);
    assert GenLogRedirect(logDir, subject, appName)[|RedirectOp|..] == PathJoin(logDir, name);
    BasenameOfPathJoin(logDir, name);
    BasenameOfPlainName(name);
  }

  // ----------------------------------------------------- filter_subjects

  /** `filter_subjects`: subjects without an output directory yet, in order.
      `existingDirs` stands for the directories present on disk. */
  function FilterSubjects(subjects: seq<string>, outDir: string, existingDirs: set<string>): seq<string> {
    if |subjects| == 0 then []
    else (if PathJoin(outDir, subjects[0]) !in existingDirs then [subjects[0]] else [])
         + FilterSubjects(subjects[1..], outDir, existingDirs)
  }

  /** A subject is kept, as often as it is given, exactly when its output
      directory does not exist. */
  lemma {:induction false} FilterSubjectsCount(subjects: seq<string>, outDir: string, existingDirs: set<string>, s: string)
    ensures multiset(FilterSubjects(subjects, outDir, existingDirs))[s]
         == if PathJoin(outDir, s) in existingDirs then 0 else multiset(subjects)[s]
    decreases |subjects|
  {
    if |subjects| > 0 {
      var x := subjects[0];
      var head := if PathJoin(outDir, x) !in existingDirs then [x] else [];
      FilterSubjectsCount(subjects[1..], outDir, existingDirs, s);
      assert FilterSubjects(subjects, outDir, existingDirs) == head + FilterSubjects(subjects[1..], outDir, existingDirs);
      assert subjects == [x] + subjects[1..];
      assert multiset(subjects)[s] == multiset([x])[s] + multiset(subjects[1..])[s];
      assert multiset(FilterSubjects(subjects, outDir, existingDirs))[s]
          == multiset(head)[s] + multiset(FilterSubjects(subjects[1..], outDir, existingDirs))[s];
    }
  }

  /** Filtering keeps the input order: it distributes over concatenation. */
  lemma {:induction false} FilterSubjectsAppend(a: seq<string>, b: seq<string>, outDir: string, existingDirs: set<string>)
    ensures FilterSubjects(a + b, outDir, existingDirs)
         == FilterSubjects(a, outDir, existingDirs) + FilterSubjects(b, outDir, existingDirs)
    decreases |a|
  {
    if |a| > 0 {
      assert (a + b)[1..] == a[1..] + b;
      FilterSubjectsAppend(a[1..], b, outDir, existingDirs);
    } else {
      assert a + b == b;
    }
  }

  // ------------------------------------------------- submit_jobfile threads

  const NodesHead: string := "-l nodes=1:ppn="
  const NodesTail: string := ",walltime=24:00:00"

  /** The node request passed to qsub. `threads` is the app's thread option
      as `get_dict_args` left it (a string), or None when it was not given;
      the request is made for any non-empty value, "0" included, on a queue
      named "pbs" in any letter case. */
  function ThreadArg(threads: Option<string>, queue: string): (arg: string)
    ensures arg != "" <==> threads.Some? && threads.value != "" && Lower(queue) == "pbs"
    ensures arg != "" ==> arg == NodesHead + threads.value + NodesTail
  {
    if threads.Some? && threads.value != "" && Lower(queue) == "pbs" then
      NodesHead + threads.value + NodesTail
    else ""
  }

  /** The thread count a node request asks for, if it is one. */
  function RequestedThreads(arg: string): Option<string> {
    if |arg| >= |NodesHead| + |NodesTail|
       && arg[..|NodesHead|] == NodesHead
       && arg[|arg| - |NodesTail|..] == NodesTail
    then Some(arg[|NodesHead|..|arg| - |NodesTail|])
    else None
  }

  /** The scheduler receives exactly the requested thread count: it reads
      back from the node request, and no request is made without one. */
  lemma ThreadArgRoundTrip(threads: Option<string>, queue: string)
    ensures var arg := ThreadArg(threads, queue);
            (arg != "" ==> RequestedThreads(arg) == threads)
            && (arg == "" ==> RequestedThreads(arg).None?)
  {
    var arg := ThreadArg(threads, queue);
    if arg != "" {
      assert arg[..|NodesHead|] == NodesHead;
      assert arg[|arg| - |NodesTail|..] == NodesTail;
      assert arg[|NodesHead|..|arg| - |NodesTail|] == threads.value;
    }
  }

  /** A thread option of "0" still asks for nodes: the test is on the
      string's emptiness, not on the number. */
  lemma ExampleZeroThreadsRequested()
    ensures ThreadArg(Some("0"), "PBS") == "-l nodes=1:ppn=0,walltime=24:00:00"
  {
    assert Lower("PBS") == "pbs";
  }
}

=== FILE: common.dfy ===
/** Failure-carrying values used across the model (an optional value, and the
    result of an operation that the original program ends with an exception)
    and one sequence fact the inductive proofs share. */
module Common {

  datatype Option<+T> = None | Some(value: T)

  datatype Result<+T, +E> = Ok(value: T) | Err(error: E)

  /** Concatenation regrouped; stated once so that inductive steps need not
      rediscover it in a large context. */
  lemma ConsAppend<T>(h: seq<T>, x: seq<T>, y: seq<T>)
    ensures h + (x + y) == (h + x) + y
  {
  }
}

=== FILE: credentials.dfy ===
/** Reading the fetcher's credentials file: the first line is the user name
    and the second the password, each stripped of surrounding whitespace.
    The file's text is an input; None stands for a file that cannot be read. */
module Credentials {
  import opened Common
  import opened Text

  /** Both failures end the program with status 1. */
  datatype CredentialError = Unreadable | Malformed

  function Concat(lines: seq<string>): string {
    if |lines| == 0 then "" else lines[0] + Concat(lines[1..])
  }

  /** Every line is non-empty, has no newline before its last character,
      and every line but the last ends in a newline. */
  predicate WellFormedLines(lines: seq<string>) {
    && (forall i :: 0 <= i < |lines| ==> |lines[i]| > 0 && '\n' !in lines[i][..|lines[i]| - 1])
    && (forall i :: 0 <= i < |lines| - 1 ==> lines[i][|lines[i]| - 1] == '\n')
  }

  /** `readlines`: the text cut after every '\n', each line keeping its
      newline; a last line without a newline is kept too. */
  function ReadLines(text: string): (lines: seq<string>)
    ensures Concat(lines) == text
    ensures WellFormedLines(lines)
    ensures |lines| == 0 <==> text == ""
    decreases |text|
  {
    if text == "" then []
    else if '\n' !in text then [text]
    else
      var i := IndexOf(text, '\n');
      var rest := ReadLines(text[i + 1..]);
      LinesCons(text, i, rest);
      [text[..i + 1]] + rest
  }

  /** The first line, up to and including the first newline, in front of the
      well-formed lines of the remaining text. */
  lemma LinesCons(text: string, i: nat, rest: seq<string>)
    requires i < |text| && text[i] == '\n' && '\n' !in text[..i]
    requires Concat(rest) == text[i + 1..] && WellFormedLines(rest)
    ensures Concat([text[..i + 1]] + rest) == text
    ensures WellFormedLines([text[..i + 1]] + rest)
  {
    var first := text[..i + 1];
    var lines := [first] + rest;
    assert first[..|first| - 1] == text[..i];
    assert lines[1..] == rest;
    assert text == first + text[i + 1..];
    assert forall k :: 1 <= k < |lines| ==> lines[k] == rest[k - 1];
  }

  /** The text has a second line: some newline is not its last character. */
  ghost predicate HasSecondLine(text: string) {
    exists i :: 0 <= i < |text| - 1 && text[i] == '\n'
  }

  lemma {:induction false} TwoLinesIffSecondLine(text: string)
    ensures |ReadLines(text)| >= 2 <==> HasSecondLine(text)
  {
    if text != "" && '\n' in text {
      var i := IndexOf(text, '\n');
      var rest := text[i + 1..];
      assert |ReadLines(text)| == 1 + |ReadLines(rest)|;
      if HasSecondLine(text) {
        var j :| 0 <= j < |text| - 1 && text[j] == '\n';
        assert i <= j;
        assert rest != "";
      }
      if rest != "" {
        assert i < |text| - 1;
      }
    }
  }

  /** The text up to and including its first newline, or all of it when it
      has none. */
  function LineOf(text: string): string {
    if '\n' in text then text[..IndexOf(text, '\n') + 1] else text
  }

  /** The text after its first newline, or "" when it has none. */
  function AfterLine(text: string): string {
    if '\n' in text then text[IndexOf(text, '\n') + 1..] else ""
  }

  /** The first line read is the text's first line; the others are the lines
      of what follows it. */
  lemma ReadLinesHead(text: string)
    requires text != ""
    ensures |ReadLines(text)| > 0 && ReadLines(text)[0] == LineOf(text)
    ensures ReadLines(text)[1..] == ReadLines(AfterLine(text))
  {
  }

  /** `get_credentials`: user name and password from the first two lines. */
  function GetCredentials(file: Option<string>): (r: Result<(string, string), CredentialError>)
    ensures file.None? ==> r == Err(Unreadable)
    ensures file.Some? ==> (r.Ok? <==> HasSecondLine(file.value))
    ensures file.Some? && !HasSecondLine(file.value) ==> r == Err(Malformed)
    ensures r.Ok? ==> r.value == (Strip(LineOf(file.value)), Strip(LineOf(AfterLine(file.value))))
    ensures r.Ok? ==> var (user, password) := r.value;
                      && (user == [] || (!IsSpace(user[0]) && !IsSpace(user[|user| - 1])))
                      && (password == [] || (!IsSpace(password[0]) && !IsSpace(password[|password| - 1])))
  {
    match file
    case None => Err(Unreadable)
    case Some(text) =>
      var lines := ReadLines(text);
      TwoLinesIffSecondLine(text);
      if |lines| < 2 then Err(Malformed)
      else
        ReadLinesHead(text);
        ReadLinesHead(AfterLine(text));
        Ok((Strip(lines[0]), Strip(lines[1])))
  }

  /** Stripping a trimmed string followed by its newline gives it back. */
  lemma StripLine(s: string)
    requires s == [] || (!IsSpace(s[0]) && !IsSpace(s[|s| - 1]))
    ensures Strip(s + "\n") == s
  {
    var line := s + "\n";
    assert IsSpace('\n');
    assert line[..|line| - 1] == s;
    if s == [] {
      assert line[1..] == [];
      assert StripStart(line) == [];
      assert StripEnd([]) == [];
    } else {
      assert line[0] == s[0];
      assert StripStart(line) == line;
      assert StripEnd(line) == StripEnd(s);
      assert StripEnd(s) == s;
    }
  }

  /** A newline-free head followed by a newline is the first line read. */
  lemma FirstLine(head: string, tail: string)
    requires '\n' !in head
    ensures ReadLines(head + "\n" + tail) == [head + "\n"] + ReadLines(tail)
  {
    var text := head + "\n" + tail;
    assert text[|head|] == '\n' && text[..|head|] == head;
    IndexOfIsFirst(text, '\n', |head|);
    assert text[..|head| + 1] == head + "\n";
    assert text[|head| + 1..] == tail;
  }

  /** A file written as user name, newline, password, newline reads back as
      that pair, whatever lines follow. */
  lemma {:induction false} CredentialsRoundTrip(user: string, password: string, more: string)
    requires '\n' !in user && '\n' !in password
    requires user == [] || (!IsSpace(user[0]) && !IsSpace(user[|user| - 1]))
    requires password == [] || (!IsSpace(password[0]) && !IsSpace(password[|password| - 1]))
    ensures GetCredentials(Some(user + "\n" + password + "\n" + more)) == Ok((user, password))
  {
    var rest := password + "\n" + more;
    assert user + "\n" + password + "\n" + more == user + "\n" + rest;
    FirstLine(user, rest);
    FirstLine(password, more);
    var lines := ReadLines(user + "\n" + rest);
    assert lines[0] == user + "\n" && lines[1] == password + "\n";
    StripLine(user);
    StripLine(password);
  }

  /** A newline-free head followed by a newline is the text's first line. */
  lemma LineOfHead(head: string, tail: string)
    requires '\n' !in head
    ensures LineOf(head + "\n" + tail) == head + "\n"
    ensures AfterLine(head + "\n" + tail) == tail
    ensures HasSecondLine(head + "\n" + tail) <==> tail != ""
  {
    var text := head + "\n" + tail;
    assert text[|head|] == '\n' && text[..|head|] == head;
    IndexOfIsFirst(text, '\n', |head|);
    assert text[..|head| + 1] == head + "\n";
    assert text[|head| + 1..] == tail;
    if HasSecondLine(text) {
      var j :| 0 <= j < |text| - 1 && text[j] == '\n';
      assert j >= |head|;
    }
  }

  /** A password line without a final newline is read all the same. */
  lemma CredentialsWithoutFinalNewline(user: string, password: string)
    requires '\n' !in user && '\n' !in password
    requires user == [] || (!IsSpace(user[0]) && !IsSpace(user[|user| - 1]))
    requires password != [] && !IsSpace(password[0]) && !IsSpace(password[|password| - 1])
    ensures GetCredentials(Some(user + "\n" + password)) == Ok((user, password))
  {
    LineOfHead(user, password);
    StripLine(user);
    StripOfTrimmed(password);
  }
}

=== FILE: session_sync.dfy ===
/** The per-session loop of the fetcher (`get_sessions`). The server, the
    destination listing and the downloads are inputs: for each session the
    caller supplies what the server answered and, when a download would be
    attempted, the member list of the zip it would produce. The loop's effect
    is recorded as one action per session it reached. */
module SessionSync {
  import opened Common
  import opened Text
  import opened ArchiveCheck
  import opened ArchiveLayout

  /** A zip found in the destination directory, as the header reader sees it. */
  datatype StoredArchive = Unreadable | Readable(contents: LocalArchive)

  /** One session listed by the server. `session` is None when fetching its
      details raised; `download` is None when the download raised, and
      otherwise the member list of the downloaded zip. */
  datatype SessionSource = SessionSource(
    name: string,
    session: Option<RemoteSession>,
    download: Option<seq<string>>)

  /** What the loop did for one session. */
  datatype Action =
    | Unavailable(name: string)        // session details could not be fetched; skipped
    | UpToDate(zipName: string)         // archive present and current; skipped
    | WouldFetch(zipName: string)       // dry run: the loop ends here
    | Crashed(zipName: string)          // reading the local archive raised; the run ends
    | DownloadFailed(zipName: string)   // download raised; skipped
    | Written(zipName: string, archive: Restructured)

  /** The archive name of a session: its name upper-cased, plus ".zip". */
  function ZipName(sessionName: string): (zipName: string)
    ensures |zipName| == |sessionName| + 4 && zipName[|sessionName|..] == ".zip"
    ensures forall i :: 0 <= i < |sessionName| ==> zipName[i] == UpperChar(sessionName[i])
  {
    Upper(sessionName) + ".zip"
  }

  /** Session names that differ only in letter case share one archive. */
  lemma ZipNameIgnoresCase(a: string, b: string)
    requires Lower(a) == Lower(b)
    ensures ZipName(a) == ZipName(b)
  {
    forall i | 0 <= i < |a|
      ensures UpperChar(a[i]) == UpperChar(b[i])
    {
      assert LowerChar(a[i]) == LowerChar(b[i]);
    }
    assert Upper(a) == Upper(b);
  }

  /** The skip rule: the archive is listed, readable and not in need of an
      update. */
  ghost predicate Current(store: map<string, StoredArchive>, session: RemoteSession, zipName: string) {
    && zipName in store
    && store[zipName].Readable?
    && !UpdateNeeded(store[zipName].contents, session)
  }

  /** What the loop body does with one session. */
  function Decide(store: map<string, StoredArchive>, src: SessionSource, dryRun: bool): (a: Action)
    ensures a.Unavailable? <==> src.session.None?
    ensures a.UpToDate? <==> src.session.Some? && Current(store, src.session.value, ZipName(src.name))
    ensures a.Crashed? <==> src.session.Some? && ZipName(src.name) in store && store[ZipName(src.name)].Unreadable?
    ensures a.WouldFetch? ==> dryRun
    ensures dryRun ==> !a.Written? && !a.DownloadFailed?
    ensures !a.Unavailable? ==> a.zipName == ZipName(src.name)
    ensures a.Written? ==> src.download.Some? && a.archive == RestructureZip(src.download.value)
    ensures a.DownloadFailed? ==> src.download.None?
  {
    match src.session
    case None => Unavailable(src.name)
    case Some(session) =>
      var zipName := ZipName(src.name);
      if zipName in store && store[zipName].Unreadable? then Crashed(zipName)
      else if zipName in store && !UpdateNeeded(store[zipName].contents, session) then UpToDate(zipName)
      else if dryRun then WouldFetch(zipName)
      else
        match src.download
        case None => DownloadFailed(zipName)
        case Some(names) => Written(zipName, RestructureZip(names))
  }

  /** Actions after which the loop does not go on. */
  predicate Stops(a: Action) {
    a.WouldFetch? || a.Crashed?
  }

  /** `get_sessions`: sessions are handled in the server's order until one
      stops the loop; every session reached is handled by `Decide`. */
  method GetSessions(store: map<string, StoredArchive>, sources: seq<SessionSource>, dryRun: bool)
    returns (log: seq<Action>)
    ensures |log| <= |sources|
    ensures forall i :: 0 <= i < |log| ==> log[i] == Decide(store, sources[i], dryRun)
    ensures forall i :: 0 <= i < |log| - 1 ==> !Stops(log[i])
    ensures |log| < |sources| ==> |log| > 0 && Stops(log[|log| - 1])
  {
    log := [];
    var i := 0;
    while i < |sources|
      invariant 0 <= i <= |sources|
      invariant |log| == i
      invariant forall k :: 0 <= k < i ==> log[k] == Decide(store, sources[k], dryRun)
      invariant forall k :: 0 <= k < i ==> !Stops(log[k])
    {
      var action := Decide(store, sources[i], dryRun);
      log := log + [action];
      if Stops(action) {
        return;
      }
      i := i + 1;
    }
  }

  /** A dry run writes nothing and ends at the first session that is neither
      unavailable nor current. */
  lemma DryRunWritesNothing(store: map<string, StoredArchive>, sources: seq<SessionSource>, log: seq<Action>)
    requires |log| <= |sources|
    requires forall i :: 0 <= i < |log| ==> log[i] == Decide(store, sources[i], true)
    requires forall i :: 0 <= i < |log| - 1 ==> !Stops(log[i])
    ensures forall i :: 0 <= i < |log| ==> !log[i].Written? && !log[i].DownloadFailed?
    ensures forall i :: 0 <= i < |log| - 1 ==> log[i].Unavailable? || log[i].UpToDate?
  {
    forall i | 0 <= i < |log| - 1
      ensures log[i].Unavailable? || log[i].UpToDate?
    {
      assert !Stops(Decide(store, sources[i], true));
    }
  }

  /** A session whose stored archive reads back as a faithful copy of it
      (`Mirror`) is skipped, in a dry run as well. */
  lemma MirroredSessionIsSkipped(
    store: map<string, StoredArchive>, src: SessionSource, members: seq<string>, dryRun: bool)
    requires src.session.Some? && |members| == |src.session.value.scanUids|
    requires ZipName(src.name) in store
    requires store[ZipName(src.name)] == Readable(Mirror(src.session.value, members))
    ensures Decide(store, src, dryRun) == UpToDate(ZipName(src.name))
  {
    MirrorIsCurrent(src.session.value, members);
  }
}

=== FILE: shared_ids.dfy ===
/** The pure parts of linking shared subject IDs: normalising the XNAT server
    address, reading a REDCap record (its datman ID, study and shared IDs),
    selecting the study's records from the REDCap response, and choosing the
    subject's experiment. The datman ID parser is not part of this model and
    is a parameter: it yields None where it would raise its parse exception. */
module SharedIds {
  import opened Common
  import opened Text

  // ------------------------------------------------------- get_xnat_url

  /** `get_xnat_url`: the configured server, with "https://" put in front
      unless "https" already occurs anywhere in it. */
  function XnatUrl(url: string): (r: string)
    ensures Contains(r, "https")
    ensures Contains(url, "https") ==> r == url
    ensures !Contains(url, "https") ==> StartsWith(r, "https://") && r[|"https://"|..] == url
  {
    if Contains(url, "https") then url
    else
      assert OccursAt("https://" + url, "https", 0);
      "https://" + url
  }

  lemma XnatUrlIdempotent(url: string)
    ensures XnatUrl(XnatUrl(url)) == XnatUrl(url)
  {
  }

  // ------------------------------------------------------------ records

  /** The parts of a parsed datman ID that the linking reads. */
  datatype DatmanId = DatmanId(study: string, site: string, subject: string, session: string)

  /** One flat REDCap record: its fields in the record's key iteration order,
      keys distinct. */
  type RecordDict = seq<(string, string)>

  datatype RecordError = MissingField(field: string)

  datatype Record = Record(
    recordId: string,
    id: Option<DatmanId>,
    study: Option<string>,
    comment: string,
    sharedIds: seq<string>)

  /** Dictionary lookup on a record's fields. */
  function Lookup(d: RecordDict, key: string): (v: Option<string>)
    ensures v.None? <==> forall i :: 0 <= i < |d| ==> d[i].0 != key
    ensures v.Some? ==> exists i :: 0 <= i < |d| && d[i] == (key, v.value)
  {
    if |d| == 0 then None
    else if d[0].0 == key then Some(d[0].1)
    else
      var rest := Lookup(d[1..], key);
      assert forall i :: 1 <= i < |d| ==> d[i] == d[1..][i - 1];
      rest
  }

  /** `__get_study`: the study of the record's datman ID, if it has one. */
  function StudyOf(id: Option<DatmanId>): (study: Option<string>)
    ensures study.Some? <==> id.Some?
    ensures id.Some? ==> study.value == id.value.study
  {
    match id
    case None => None
    case Some(i) => Some(i.study)
  }

  /** A usable shared ID: non-empty and parsable as a datman ID. */
  predicate ValidSharedId(value: string, parse: string -> Option<DatmanId>) {
    value != "" && parse(value).Some?
  }

  /** A field whose stripped value is a shared ID: its key mentions
      "shared_parid" and its stripped value is valid. */
  predicate SharedField(entry: (string, string), parse: string -> Option<DatmanId>) {
    Contains(entry.0, "shared_parid") && ValidSharedId(Strip(entry.1), parse)
  }

  /** `__get_shared_ids`: the stripped values of the shared-ID fields, in
      field order, skipping empty values and values that do not parse. */
  function SharedIds(d: RecordDict, parse: string -> Option<DatmanId>): (ids: seq<string>)
    ensures forall k :: 0 <= k < |ids| ==> ValidSharedId(ids[k], parse)
    ensures |ids| <= |d|
  {
    if |d| == 0 then []
    else (if SharedField(d[0], parse) then [Strip(d[0].1)] else []) + SharedIds(d[1..], parse)
  }

  /** Every shared ID is the stripped value of a qualifying field. */
  lemma {:induction false} SharedIdsSound(d: RecordDict, parse: string -> Option<DatmanId>, v: string)
    requires v in SharedIds(d, parse)
    ensures exists i :: 0 <= i < |d| && SharedField(d[i], parse) && Strip(d[i].1) == v
    decreases |d|
  {
    if !(SharedField(d[0], parse) && Strip(d[0].1) == v) {
      SharedIdsSound(d[1..], parse, v);
      var i :| 0 <= i < |d| - 1 && SharedField(d[1..][i], parse) && Strip(d[1..][i].1) == v;
      assert d[1..][i] == d[i + 1];
    }
  }

  /** Every qualifying field contributes its stripped value. */
  lemma {:induction false} SharedIdsComplete(d: RecordDict, parse: string -> Option<DatmanId>, i: int)
    requires 0 <= i < |d| && SharedField(d[i], parse)
    ensures Strip(d[i].1) in SharedIds(d, parse)
    decreases |d|
  {
    if i > 0 {
      assert d[1..][i - 1] == d[i];
      SharedIdsComplete(d[1..], parse, i - 1);
    }
  }

  /** The shared IDs follow field order: fields read one after another give
      their IDs one after another. */
  lemma {:induction false} SharedIdsAppend(a: RecordDict, b: RecordDict, parse: string -> Option<DatmanId>)
    ensures SharedIds(a + b, parse) == SharedIds(a, parse) + SharedIds(b, parse)
    decreases |a|
  {
    if |a| == 0 {
      assert a + b == b;
    } else {
      assert (a + b)[0] == a[0];
      assert (a + b)[1..] == a[1..] + b;
      SharedIdsAppend(a[1..], b, parse);
      ConsAppend(if SharedField(a[0], parse) then [Strip(a[0].1)] else [],
                 SharedIds(a[1..], parse), SharedIds(b, parse));
    }
  }

  /** The fields whose key mentions "shared_parid", in order. */
  function SharedFields(d: RecordDict): (fields: RecordDict)
    ensures forall k :: 0 <= k < |fields| ==> Contains(fields[k].0, "shared_parid") && fields[k] in d
    ensures forall i :: 0 <= i < |d| && Contains(d[i].0, "shared_parid") ==> d[i] in fields
  {
    if |d| == 0 then []
    else
      var rest := SharedFields(d[1..]);
      assert forall i :: 1 <= i < |d| ==> d[i] == d[1..][i - 1];
      (if Contains(d[0].0, "shared_parid") then [d[0]] else []) + rest
  }

  /** The shared-ID fields keep the record's field order. */
  lemma {:induction false} SharedFieldsAppend(a: RecordDict, b: RecordDict)
    ensures SharedFields(a + b) == SharedFields(a) + SharedFields(b)
    decreases |a|
  {
    if |a| == 0 {
      assert a + b == b;
    } else {
      assert (a + b)[1..] == a[1..] + b;
      SharedFieldsAppend(a[1..], b);
    }
  }

  /** Only the shared-ID fields are read: the other fields can be anything. */
  lemma {:induction false} SharedIdsReadOnlySharedFields(d: RecordDict, parse: string -> Option<DatmanId>)
    ensures SharedIds(d, parse) == SharedIds(SharedFields(d), parse)
    decreases |d|
  {
    if |d| > 0 {
      SharedIdsReadOnlySharedFields(d[1..], parse);
      var head := if Contains(d[0].0, "shared_parid") then [d[0]] else [];
      SharedIdsAppend(head, SharedFields(d[1..]), parse);
      if head == [] {
        assert head + SharedFields(d[1..]) == SharedFields(d[1..]);
      } else {
        assert head[1..] == [];
      }
    }
  }

  /** `Record.__init__`: a missing "record_id", "par_id" or "cmts" field
      raises (reported here as the first one missing, in that order). A
      `par_id` that does not parse leaves the record without ID and study. */
  function MakeRecord(d: RecordDict, parse: string -> Option<DatmanId>): (r: Result<Record, RecordError>)
    ensures r == Err(MissingField("record_id")) <==> Lookup(d, "record_id").None?
    ensures r == Err(MissingField("par_id")) <==> Lookup(d, "record_id").Some? && Lookup(d, "par_id").None?
    ensures r == Err(MissingField("cmts")) <==>
              Lookup(d, "record_id").Some? && Lookup(d, "par_id").Some? && Lookup(d, "cmts").None?
    ensures r.Ok? ==>
              && r.value.recordId == Lookup(d, "record_id").value
              && r.value.comment == Lookup(d, "cmts").value
              && r.value.id == parse(Lookup(d, "par_id").value)
              && (r.value.id.None? ==> r.value.study.None?)
              && (r.value.id.Some? ==> r.value.study == Some(r.value.id.value.study))
              && r.value.sharedIds == SharedIds(d, parse)
  {
    match Lookup(d, "record_id")
    case None => Err(MissingField("record_id"))
    case Some(recordId) =>
      match Lookup(d, "par_id")
      case None => Err(MissingField("par_id"))
      case Some(parId) =>
        var id := parse(parId);
        match Lookup(d, "cmts")
        case None => Err(MissingField("cmts"))
        case Some(comment) => Ok(Record(recordId, id, StudyOf(id), comment, SharedIds(d, parse)))
  }

  /** The item can be made into a record. */
  predicate IsRecord(d: RecordDict, parse: string -> Option<DatmanId>) {
    MakeRecord(d, parse).Ok?
  }

  /** `matches_study`: the study tag equals the record's study. */
  predicate MatchesStudy(rec: Record, tag: Option<string>) {
    tag == rec.study
  }

  /** The record filter's test: an ID, and the study it names. */
  predicate Selected(rec: Record, tag: Option<string>) {
    rec.id.Some? && MatchesStudy(rec, tag)
  }

  /** For a configured study tag the ID check is implied by the study match:
      a record without ID has no study. */
  lemma SelectedIffStudyOfId(d: RecordDict, parse: string -> Option<DatmanId>, tag: string)
    requires MakeRecord(d, parse).Ok?
    ensures var rec := MakeRecord(d, parse).value;
            Selected(rec, Some(tag)) <==> MatchesStudy(rec, Some(tag))
    ensures var rec := MakeRecord(d, parse).value;
            Selected(rec, Some(tag)) <==> parse(Lookup(d, "par_id").value).Some?
                                          && parse(Lookup(d, "par_id").value).value.study == tag
  {
  }

  // ------------------------------------------ get_project_redcap_records

  datatype FetchError = RequestFailed(status: int) | BadRecord(error: RecordError)

  /** The study's records among the response items, in response order; the
      first item that cannot be made into a record aborts the selection. */
  function SelectRecords(items: seq<RecordDict>, tag: Option<string>, parse: string -> Option<DatmanId>)
    : (r: Result<seq<Record>, RecordError>)
    ensures r.Ok? <==> forall i :: 0 <= i < |items| ==> IsRecord(items[i], parse)
    ensures r.Ok? ==> forall k :: 0 <= k < |r.value| ==> Selected(r.value[k], tag)
  {
    if |items| == 0 then Ok([])
    else
      AllRecordsCons(items, parse);
      match MakeRecord(items[0], parse)
      case Err(e) => Err(e)
      case Ok(rec) =>
        match SelectRecords(items[1..], tag, parse)
        case Err(e) => Err(e)
        case Ok(recs) => Ok((if Selected(rec, tag) then [rec] else []) + recs)
  }

  lemma AllRecordsCons(items: seq<RecordDict>, parse: string -> Option<DatmanId>)
    requires |items| > 0
    ensures (forall i :: 0 <= i < |items| ==> IsRecord(items[i], parse))
        <==> IsRecord(items[0], parse) && forall i :: 0 <= i < |items| - 1 ==> IsRecord(items[1..][i], parse)
  {
    assert forall i :: 1 <= i < |items| ==> items[i] == items[1..][i - 1];
  }

  /** The error reported is that of the first item that is not a record. */
  lemma {:induction false} SelectRecordsFirstError(items: seq<RecordDict>, tag: Option<string>, parse: string -> Option<DatmanId>)
    requires SelectRecords(items, tag, parse).Err?
    ensures exists i :: && 0 <= i < |items|
                        && MakeRecord(items[i], parse) == Err(SelectRecords(items, tag, parse).error)
                        && forall j :: 0 <= j < i ==> IsRecord(items[j], parse)
    decreases |items|
  {
    var e := SelectRecords(items, tag, parse).error;
    if IsRecord(items[0], parse) {
      var tail := items[1..];
      assert SelectRecords(tail, tag, parse) == Err(e);
      SelectRecordsFirstError(tail, tag, parse);
      var i :| && 0 <= i < |tail|
               && MakeRecord(tail[i], parse) == Err(e)
               && forall j :: 0 <= j < i ==> IsRecord(tail[j], parse);
      RecordsBefore(items, parse, i);
      assert items[i + 1] == tail[i];
    } else {
      assert MakeRecord(items[0], parse) == Err(e);
    }
  }

  /** Records at the head and before position `i` of the tail are the
      records before position `i + 1`. */
  lemma RecordsBefore(items: seq<RecordDict>, parse: string -> Option<DatmanId>, i: nat)
    requires 0 < |items| && i < |items| - 1
    requires IsRecord(items[0], parse)
    requires forall j :: 0 <= j < i ==> IsRecord(items[1..][j], parse)
    ensures forall j :: 0 <= j < i + 1 ==> IsRecord(items[j], parse)
  {
    forall j | 0 < j < i + 1
      ensures IsRecord(items[j], parse)
    {
      assert items[j] == items[1..][j - 1];
    }
  }

  /** The records made from the items, where every item makes one. */
  function AllRecords(items: seq<RecordDict>, parse: string -> Option<DatmanId>): (recs: seq<Record>)
    requires forall i :: 0 <= i < |items| ==> IsRecord(items[i], parse)
    ensures |recs| == |items|
    ensures forall i :: 0 <= i < |items| ==> MakeRecord(items[i], parse) == Ok(recs[i])
  {
    var recs := seq(|items|, i requires 0 <= i < |items| => assert IsRecord(items[i], parse); MakeRecord(items[i], parse).value);
    assert forall i :: 0 <= i < |items| ==> MakeRecord(items[i], parse) == Ok(recs[i]) by {
      forall i | 0 <= i < |items|
        ensures MakeRecord(items[i], parse) == Ok(recs[i])
      {
        assert IsRecord(items[i], parse);
        assert MakeRecord(items[i], parse).Ok?;
        assert recs[i] == MakeRecord(items[i], parse).value;
      }
    }
    recs
  }

  /** The selection is exactly the records passing the filter, in order. */
  function FilterSelected(recs: seq<Record>, tag: Option<string>): seq<Record> {
    if |recs| == 0 then []
    else (if Selected(recs[0], tag) then [recs[0]] else []) + FilterSelected(recs[1..], tag)
  }

  lemma {:induction false} SelectRecordsIsFilter(items: seq<RecordDict>, tag: Option<string>, parse: string -> Option<DatmanId>)
    requires forall i :: 0 <= i < |items| ==> IsRecord(items[i], parse)
    ensures SelectRecords(items, tag, parse) == Ok(FilterSelected(AllRecords(items, parse), tag))
    decreases |items|
  {
    if |items| > 0 {
      AllRecordsCons(items, parse);
      SelectRecordsIsFilter(items[1..], tag, parse);
      AllRecordsTail(items, parse);
    }
  }

  /** The records of the items are the first item's record followed by the
      records of the rest. */
  lemma AllRecordsTail(items: seq<RecordDict>, parse: string -> Option<DatmanId>)
    requires |items| > 0 && forall i :: 0 <= i < |items| ==> IsRecord(items[i], parse)
    ensures forall i :: 0 <= i < |items| - 1 ==> IsRecord(items[1..][i], parse)
    ensures MakeRecord(items[0], parse) == Ok(AllRecords(items, parse)[0])
    ensures AllRecords(items, parse)[1..] == AllRecords(items[1..], parse)
  {
    var all := AllRecords(items, parse);
    assert forall i :: 0 <= i < |items| - 1 ==> items[1..][i] == items[i + 1];
    var tail := AllRecords(items[1..], parse);
    forall i | 0 <= i < |tail|
      ensures all[1..][i] == tail[i]
    {
      assert items[1..][i] == items[i + 1];
    }
  }

  /** A record made from an item that passes the filter is kept. */
  lemma {:induction false} FilterSelectedComplete(recs: seq<Record>, tag: Option<string>, k: int)
    requires 0 <= k < |recs| && Selected(recs[k], tag)
    ensures recs[k] in FilterSelected(recs, tag)
    decreases |recs|
  {
    if k > 0 {
      assert recs[1..][k - 1] == recs[k];
      FilterSelectedComplete(recs[1..], tag, k - 1);
    }
  }

  /** `get_project_redcap_records` after the request: a status other than
      200 ends the program; otherwise the study's records are selected. */
  function ProjectRecords(status: int, items: seq<RecordDict>, tag: Option<string>, parse: string -> Option<DatmanId>)
    : (r: Result<seq<Record>, FetchError>)
    ensures status != 200 ==> r == Err(RequestFailed(status))
    ensures status == 200 ==> (r.Ok? <==> forall i :: 0 <= i < |items| ==> IsRecord(items[i], parse))
    ensures r.Ok? ==> forall k :: 0 <= k < |r.value| ==> Selected(r.value[k], tag)
    ensures r.Ok? ==> forall i :: 0 <= i < |items| && Selected(MakeRecord(items[i], parse).value, tag) ==>
                        MakeRecord(items[i], parse).value in r.value
  {
    if status != 200 then Err(RequestFailed(status))
    else
      match SelectRecords(items, tag, parse)
      case Err(e) => Err(BadRecord(e))
      case Ok(recs) =>
        SelectRecordsIsFilter(items, tag, parse);
        assert forall i :: 0 <= i < |items| && Selected(MakeRecord(items[i], parse).value, tag) ==>
                 MakeRecord(items[i], parse).value in recs by {
          forall i | 0 <= i < |items| && Selected(MakeRecord(items[i], parse).value, tag) {
            FilterSelectedComplete(AllRecords(items, parse), tag, i);
          }
        }
        Ok(recs)
  }

  // ------------------------------------------------------ get_experiment

  /** `get_experiment`: no experiment for a subject without any, otherwise
      the first one listed (later ones are ignored with an error logged). */
  function FirstExperiment(names: seq<string>): (chosen: Option<string>)
    ensures chosen.None? <==> names == []
    ensures chosen.Some? ==> |names| > 0 && chosen.value == names[0]
  {
    if |names| == 0 then None else Some(names[0])
  }

  /** Only the first experiment is used: experiments listed after it change
      nothing. */
  lemma FirstExperimentIgnoresLater(names: seq<string>, more: seq<string>)
    requires names != []
    ensures FirstExperiment(names + more) == FirstExperiment(names)
  {
    assert (names + more)[0] == names[0];
  }
}

=== FILE: text.dfy ===
/** The string operations the scripts lean on, written out over `seq<char>`:
    Python's `str.strip`, ASCII `lower`/`upper`, `startswith`, `in` on strings,
    `split`/`join` on one separator character, `os.path.basename`,
    and two-argument `os.path.join`. */
module Text {

  /** Python 2.7's `unicode.isspace` for one character (Unicode 5.2 data):
      the ASCII controls 9-13 and 28-31, the space, and the Unicode space
      separators, U+180E among them. */
  predicate IsSpace(c: char) {
    var n := c as int;
    || (9 <= n <= 13) || (28 <= n <= 32)
    || n == 0x85 || n == 0xA0 || n == 0x1680 || n == 0x180E
    || (0x2000 <= n <= 0x200A)
    || n == 0x2028 || n == 0x2029 || n == 0x202F || n == 0x205F || n == 0x3000
  }

  predicate StartsWith(s: string, prefix: string) {
    |prefix| <= |s| && s[..|prefix|] == prefix
  }

  predicate OccursAt(s: string, part: string, i: int) {
    0 <= i <= |s| - |part| && s[i..i + |part|] == part
  }

  /** Python's `part in s` for strings. */
  predicate Contains(s: string, part: string) {
    exists i | 0 <= i <= |s| - |part| :: OccursAt(s, part, i)
  }

  // ---------------------------------------------------------------- case

  function LowerChar(c: char): char {
    if 'A' <= c <= 'Z' then (c as int + 32) as char else c
  }

  function UpperChar(c: char): char {
    if 'a' <= c <= 'z' then (c as int - 32) as char else c
  }

  function Lower(s: string): (r: string)
    ensures |r| == |s|
    ensures forall i :: 0 <= i < |s| ==> r[i] == LowerChar(s[i])
  {
    seq(|s|, i requires 0 <= i < |s| => LowerChar(s[i]))
  }

  function Upper(s: string): (r: string)
    ensures |r| == |s|
    ensures forall i :: 0 <= i < |s| ==> r[i] == UpperChar(s[i])
  {
    seq(|s|, i requires 0 <= i < |s| => UpperChar(s[i]))
  }

  // --------------------------------------------------------------- strip

  /** Drops leading whitespace: the result is the suffix that starts at the
      first non-space character. */
  function StripStart(s: string): (r: string)
    ensures |r| <= |s| && r == s[|s| - |r|..]
    ensures forall k :: 0 <= k < |s| - |r| ==> IsSpace(s[k])
    ensures r == [] || !IsSpace(r[0])
  {
    if |s| > 0 && IsSpace(s[0]) then StripStart(s[1..]) else s
  }

  /** Drops trailing whitespace: the result is the prefix that ends at the
      last non-space character. */
  function StripEnd(s: string): (r: string)
    ensures |r| <= |s| && r == s[..|r|]
    ensures forall k :: |r| <= k < |s| ==> IsSpace(s[k])
    ensures r == [] || !IsSpace(r[|r| - 1])
  {
    if |s| > 0 && IsSpace(s[|s| - 1]) then StripEnd(s[..|s| - 1]) else s
  }

  /** True when `r` is the slice `s[i..i+|r|]` and everything around it is
      whitespace. */
  ghost predicate SpaceFramed(s: string, r: string, i: int) {
    && 0 <= i <= |s| - |r|
    && r == s[i..i + |r|]
    && (forall k :: 0 <= k < i ==> IsSpace(s[k]))
    && (forall k :: i + |r| <= k < |s| ==> IsSpace(s[k]))
  }

  /** Python's `s.strip()`. */
  function Strip(s: string): (r: string)
    ensures exists i :: SpaceFramed(s, r, i)
    ensures r == [] || (!IsSpace(r[0]) && !IsSpace(r[|r| - 1]))
  {
    var t := StripStart(s);
    var r := StripEnd(t);
    assert SpaceFramed(s, r, |s| - |t|);
    r
  }

  /** A string with no whitespace at either end is its own strip. */
  lemma StripOfTrimmed(s: string)
    requires s == [] || (!IsSpace(s[0]) && !IsSpace(s[|s| - 1]))
    ensures Strip(s) == s
  {
  }

  lemma StripIdempotent(s: string)
    ensures Strip(Strip(s)) == Strip(s)
  {
    StripOfTrimmed(Strip(s));
  }

  // ------------------------------------------------------------ basename

  /** `os.path.basename`: the text after the last '/'. The contract is the
      defining property: the longest suffix without a '/'. */
  function Basename(path: string): (base: string)
    ensures '/' !in base
    ensures |base| <= |path| && base == path[|path| - |base|..]
    ensures |base| < |path| ==> path[|path| - |base| - 1] == '/'
  {
    if |path| == 0 || path[|path| - 1] == '/' then ""
    else
      var n := |path|;
      var b := Basename(path[..n - 1]);
      assert path[..n - 1][n - 1 - |b|..] == path[n - 1 - |b|..n - 1];
      assert path[n - 1 - |b|..] == path[n - 1 - |b|..n - 1] + [path[n - 1]];
      assert |b| < n - 1 ==> path[..n - 1][n - 1 - |b| - 1] == path[n - |b| - 2];
      b + [path[n - 1]]
  }

  /** Any slash-free suffix that is the whole path or follows a '/' is the
      basename. */
  lemma {:induction false} BasenameUnique(path: string, b: string)
    requires '/' !in b
    requires |b| <= |path| && b == path[|path| - |b|..]
    requires |b| < |path| ==> path[|path| - |b| - 1] == '/'
    ensures Basename(path) == b
    decreases |b|
  {
    if b == [] {
      assert |path| > 0 ==> path[|path| - 1] == '/';
    } else {
      var n := |path|;
      DropLastChar(path, b);
      BasenameUnique(path[..n - 1], b[..|b| - 1]);
    }
  }

  /** Removing the last character of a slash-free suffix and of the path. */
  lemma DropLastChar(path: string, b: string)
    requires '/' !in b && b != []
    requires |b| <= |path| && b == path[|path| - |b|..]
    requires |b| < |path| ==> path[|path| - |b| - 1] == '/'
    ensures var init, b' := path[..|path| - 1], b[..|b| - 1];
            && path[|path| - 1] != '/' && b == b' + [path[|path| - 1]]
            && '/' !in b' && |b'| <= |init| && b' == init[|init| - |b'|..]
            && (|b'| < |init| ==> init[|init| - |b'| - 1] == '/')
  {
    var n := |path|;
    var init := path[..n - 1];
    var b' := b[..|b| - 1];
    assert b[|b| - 1] == path[n - 1];
    assert b[|b| - 1] in b;
    assert b' == init[|init| - |b'|..];
    assert |b'| < |init| ==> init[|init| - |b'| - 1] == path[n - |b| - 1];
  }

  lemma BasenameOfPlainName(name: string)
    requires '/' !in name
    ensures Basename(name) == name
  {
    BasenameUnique(name, name);
  }

  /** Directory prefixes do not change a basename. */
  lemma BasenameAfterSlash(dir: string, name: string)
    ensures Basename(dir + "/" + name) == Basename(name)
  {
    var path := dir + "/" + name;
    var b := Basename(name);
    assert path[|path| - |b|..] == name[|name| - |b|..];
    if |b| == |name| {
      assert path[|path| - |b| - 1] == '/';
    } else {
      assert path[|path| - |b| - 1] == name[|name| - |b| - 1];
    }
    BasenameUnique(path, b);
  }

  // ----------------------------------------------------------- split/join

  function IndexOf(s: string, c: char): (i: nat)
    requires c in s
    ensures i < |s| && s[i] == c && c !in s[..i]
  {
    if s[0] == c then 0 else 1 + IndexOf(s[1..], c)
  }

  /** The first occurrence is the index of any occurrence with none before it. */
  lemma IndexOfIsFirst(s: string, c: char, k: nat)
    requires k < |s| && s[k] == c && c !in s[..k]
    ensures c in s && IndexOf(s, c) == k
  {
    assert s[k] in s;
    var i := IndexOf(s, c);
    if i < k {
      assert false;
    } else if k < i {
      assert false;
    }
  }

  /** Python's `s.split(sep)` for a one-character separator. */
  function Split(s: string, sep: char): (parts: seq<string>)
    ensures |parts| > 0
    ensures forall i :: 0 <= i < |parts| ==> sep !in parts[i]
    ensures sep in s ==> |parts| > 1
    decreases |s|
  {
    if sep !in s then [s]
    else
      var i := IndexOf(s, sep);
      [s[..i]] + Split(s[i + 1..], sep)
  }

  /** Python's `sep.join(parts)`. */
  function Join(parts: seq<string>, sep: char): string {
    if |parts| == 0 then ""
    else if |parts| == 1 then parts[0]
    else parts[0] + [sep] + Join(parts[1..], sep)
  }

  lemma JoinCons(head: string, rest: seq<string>, sep: char)
    requires |rest| > 0
    ensures Join([head] + rest, sep) == head + [sep] + Join(rest, sep)
  {
    assert ([head] + rest)[1..] == rest;
  }

  lemma {:induction false} JoinSplit(s: string, sep: char)
    ensures Join(Split(s, sep), sep) == s
    decreases |s|
  {
    if sep in s {
      var i := IndexOf(s, sep);
      var t := s[i + 1..];
      assert Split(s, sep) == [s[..i]] + Split(t, sep);
      JoinCons(s[..i], Split(t, sep), sep);
      JoinSplit(t, sep);
      assert s == s[..i] + [sep] + t;
    }
  }

  // ----------------------------------------------------------- path join

  /** Two-argument `os.path.join` on POSIX: an absolute second part replaces
      the first; otherwise a '/' is inserted unless the first part is empty
      or already ends with one. */
  function PathJoin(a: string, b: string): string {
    if StartsWith(b, "/") then b
    else if a == "" || a[|a| - 1] == '/' then a + b
    else a + "/" + b
  }

  lemma BasenameOfPathJoin(a: string, b: string)
    ensures Basename(PathJoin(a, b)) == Basename(b)
  {
    if StartsWith(b, "/") {
    } else if a == "" {
      assert a + b == b;
    } else if a[|a| - 1] == '/' {
      var dir := a[..|a| - 1];
      assert a + b == dir + "/" + b;
      BasenameAfterSlash(dir, b);
    } else {
      BasenameAfterSlash(a, b);
    }
  }
}
